=== FILE: README.md ===
# Hospital management rules, modelled in Dafny

This project models the business rules of a Django hospital management system. Each database table is a sequence of immutable records, and a row's id is its position. Each view or model method is a pure function: it takes the old state and the request's inputs, and returns the new state together with an outcome tag.

The outcome tag stands in for the view's redirect, rendered page, 404 or 403. Money is an integer number of minor currency units (hundredths). Instants are integer seconds, dates are integer day numbers, and the values of `uuid4().hex` and `timezone.now()` are parameters.

Modules:

- `Common`: optional values and Python truthiness, ASCII case mapping, substring search, decimal rendering with zero padding, and tagged upper-case identifiers.
- `Collections`: `filter` and `order_by` on sequences, with a subsequence relation to state that `filter` keeps table order.
- `Access`: the three role-gate decorators, `login_required`, the role-to-dashboard dispatch, the register/login short-cut for signed-in users, and the maintenance-mode middleware.
- `ActivityLog`: the keyword-based colour of an activity log entry.
- `Identifiers`: patient ids, doctor and licence ids, bill numbers and payment references.
- `Cashier`: bills, payments, `Bill.save`, the settlement rule, and the three views that record payments.
- `Stock`: medicines and reagents, low-stock and expiry classification, and the inventory alert lists.
- `Pharmacy`: dispensing a prescription as one all-or-nothing step with an audit log.
- `Inpatient`: billing for nights stayed, one-shot discharge, and the ward dashboard's running bill.
- `Visits`: appointment statuses, the nurse's vitals step and queue, and the doctor's status update.
- `Labs`: submitting lab results, and the lab queue.

## Model

| member | source | states |
|---|---|---|
| Common.Lower | accounts/models.py:52 | `.lower()` keeps the length and maps each character through the ASCII lower-case table |
| Common.LowerIdempotent | accounts/views.py:67 | lower-casing an already lower-cased role changes nothing |
| Common.Contains | accounts/models.py:53 | `word in act` as a left-to-right scan; `Common.ContainsIffOccurs` states that it finds exactly the occurrences |
| Common.ContainsIffOccurs | accounts/models.py:53 | the executable substring test `word in act` holds iff the word occurs at some position of the text |
| Common.ContainsAny | accounts/models.py:53-55 | `any(word in act for word in words)` holds iff some listed word is contained in the text |
| Common.Decimal | pharmacy/views.py:92 | the decimal rendering of a number is a non-empty digit string without leading zeros |
| Common.DecimalRoundTrip | pharmacy/views.py:92 | parsing the decimal rendering of a number gives the number back |
| Common.ParseIgnoresLeadingZeros | doctors/views.py:21 | leading zeros do not change the value a digit string denotes |
| Common.PaddedDecimal | doctors/views.py:21-23 | `:05d` gives at least five digits that denote exactly the number |
| Common.TaggedToken | cashier/views.py:70 | prefix plus the first n characters of a uuid hex, upper-cased: the length is prefix + n, the tail is upper-case hex, and lower-casing the tail gives back the token's prefix |
| Collections.Filter | nurses/views.py:8 | `filter(...)` keeps exactly the rows satisfying the condition (both directions, by position) |
| Collections.FilterCounts | nurses/views.py:8 | each satisfying row appears in the result exactly as often as in the table, and no other row appears |
| Collections.FilterIsSubsequence | nurses/views.py:8 | the kept rows appear in the same order as in the table |
| Collections.FilterAppend | nurses/views.py:8 | filtering two tables one after the other gives the two filtered parts in that order |
| Collections.SortBy | labs/views.py:12 | `order_by(key)` returns a permutation of its input in non-decreasing key order |
| Collections.InsertBy | labs/views.py:12 | inserting into a sorted sequence keeps it sorted and adds exactly that row |
| Collections.InsertByKeepsTiesBehind | labs/views.py:12 | an inserted row goes ahead of the rows that share its key, and their order is kept |
| Collections.SortByIsStable | labs/views.py:12 | the rows sharing any one key keep their table order after sorting |
| Collections.SameMultisetSameMembers | nurses/views.py:8 | two permutations of each other have the same members |
| Access.LoginRequired | cashier/views.py:59-60 | an anonymous visitor is sent to the login URL and the view is not called; a signed-in user runs the view on the same request |
| Access.HospitalRoleRequired | hospital/decorators.py:4-20 | anonymous users go to login; a listed role or `manager` runs the view on the same request; any other role is redirected to the main dashboard with an error; never 403 |
| Access.ManagerPassesEveryStation | hospital/decorators.py:14 | a manager runs the view whatever roles the station lists, even none |
| Access.LabTechOnly | accounts/decorators.py:3-8 | only a signed-in user whose role is exactly `lab_tech` runs the view; everyone else gets PermissionDenied |
| Access.LabTechOnlyStricterThanStation | accounts/decorators.py:5 | everyone `lab_tech_only` admits is admitted by a station gate listing `lab_tech`, but a manager is refused by the former and admitted by the latter |
| Access.LabTechOnlyIsCaseSensitive | accounts/decorators.py:5 | the role `Lab_Tech` is refused |
| Access.ManagerRequired | manager/decorators.py:5-12 | the view runs, on its original request, iff the role is non-empty and lower-cases to `manager`; otherwise home with an error |
| Access.ManagerRequiredAgreesWithDispatch | manager/decorators.py:8 | the manager gate admits a user iff the login dispatch (accounts/views.py:67-79) sends them to the manager dashboard |
| Access.ManagerRequiredCases | manager/decorators.py:8 | `Manager` and `MANAGER` pass; a NULL or empty role is refused |
| Access.DashboardRedirect | accounts/views.py:63-89 | a non-empty role whose lower-case form is one of the five dashboard roles goes to that role's dashboard; every other role, including NULL and empty, goes home with a warning |
| Access.DashboardRedirectIgnoresCase | accounts/views.py:67 | a role and its lower-case form are dispatched alike |
| Access.PharmacistFallsThrough | accounts/views.py:84-89 | `pharmacist` has no dashboard and goes home with a warning |
| Access.LabTechFallsThrough | accounts/views.py:84-89 | `lab_tech` has no dashboard and goes home with a warning |
| Common.FewDigitsBelowPow10 | hospital/settings.py:96-101 | a digit string with at most k significant digits denotes less than 10^k |
| Common.ManyDigitsAtLeastPow10 | hospital/settings.py:96-101 | a digit string with more than k significant digits denotes at least 10^k |
| Common.Truthy | accounts/views.py:67 | Python truthiness of an optional string: None and the empty string are false |
| Access.RoleIn | cashier/views.py:62 | `role in [...]` on a possibly absent role: an absent role is in no list |
| Pharmacy.PrescriptionNote | pharmacy/views.py:92 | the dispensing log note for a prescription; `Pharmacy.PrescriptionNoteNamesId` states what it holds |
| Pharmacy.PrescriptionNoteNamesId | pharmacy/views.py:92 | the note is the label followed by digits that read back as the prescription id |
| Pharmacy.PrescriptionNoteInjective | pharmacy/views.py:92 | different prescriptions leave different log notes |
| Common.LowerFixesLowerCase | accounts/views.py:67 | text without upper-case letters is its own lower-case form |
| Access.DashboardRedirectUnsetRole | accounts/views.py:67 | a NULL or empty role goes home with a warning |
| Access.AnonymousOnly | accounts/views.py:12-15 | register and login run only for anonymous visitors; a signed-in user is redirected to the dashboard route |
| Access.StartsWithAny | manager/middleware.py:20 | `any(path.startswith(p) ...)` holds iff some prefix starts the path |
| Access.MaintenanceGate | manager/middleware.py:10-23 | with maintenance off everything passes; a signed-in `manager` always passes; otherwise the 503 page is answered iff the path starts with none of the four exempt prefixes |
| Access.MaintenanceExemptionIsPrefix | manager/middleware.py:19-21 | `/static/css/a.css` and `/accounts/login/` pass, `/stat` gets the 503 page |
| Access.AnonymousNeverBypasses | manager/middleware.py:16 | an anonymous visitor on a non-exempt path gets the 503 page where a signed-in manager passes |
| ActivityLog.ContainsAnyIffMentions | accounts/models.py:53-55 | the keyword test holds iff one of the keywords occurs in the text |
| ActivityLog.ActionColor | accounts/models.py:50-59 | `danger` iff a danger keyword occurs in the lower-cased action; `success` iff none does and a success keyword occurs; `warning` iff neither does and `role` or `change` occurs; `info` otherwise |
| ActivityLog.ActionColorIgnoresCase | accounts/models.py:52 | an action and its lower-case form get the same colour |
| ActivityLog.DeactivateIsDanger | accounts/models.py:53-56 | an action starting with `Deactivate` is `danger` although it contains `activate` |
| Identifiers.SavePatient | accounts/models.py:217-222 | an existing patient id is kept; an empty one becomes `PAT-` and six upper-case hex characters; nothing else changes |
| Identifiers.SavePatientKeepsId | accounts/models.py:219 | a second save never changes the id the first save assigned |
| Identifiers.PaddedId | doctors/views.py:21-23 | the prefix (`DOC` or `LIC`) followed by at least five digits that denote the user id |
| Identifiers.NewDoctorProfile | doctors/views.py:19-26 | the auto-created profile carries both padded ids, `general`, `MBBS` and a fee of 500.00 |
| Identifiers.PaddedIdsDistinct | doctors/views.py:21-23 | different users get different ids under the same prefix |
| Identifiers.SmallIdsHaveFiveDigits | doctors/views.py:21 | user ids below 100000 are padded to exactly five digits |
| Identifiers.DecimalAtLeast | doctors/views.py:21 | a number whose rendering has more than k digits is at least 10^k |
| Identifiers.BillNumber | cashier/views.py:70 | `BILL` and eight upper-case hex characters taken from the uuid |
| Identifiers.PaymentReference | cashier/views.py:129 | `PAY` and n upper-case hex characters taken from the uuid |
| Cashier.BillStatusChoices | cashier/models.py:18-23 | bill status keys round-trip, and exactly the four listed keys are valid |
| Cashier.PaymentStatusChoices | cashier/models.py:68-73 | payment status keys round-trip, and exactly the four listed keys are valid |
| Cashier.PaymentMethodChoices | cashier/models.py:60-66 | payment method keys round-trip, and exactly the five listed keys are valid |
| Cashier.ParseChoice | cashier/models.py:82 | a parsed choice is one of the choices and has the submitted key; a failed parse means no choice has that key |
| Cashier.SaveBill | cashier/models.py:49-52 | after save, total + discount = amount whatever the total was before, and no other field changes |
| Cashier.SaveBillIdempotent | cashier/models.py:51 | saving twice gives the same bill as saving once |
| Cashier.DraftBill | cashier/views.py:69-72 | a bill built from the form carries the posted patient, bill type, description, amount and discount, has status `pending`, and records the cashier as its creator |
| Cashier.DefaultDiscountTotalIsAmount | cashier/forms.py:28-31 | with the discount left at the pre-filled 0, the saved total equals the amount |
| Cashier.Counts | cashier/views.py:135 | a payment counts toward a bill iff it is that bill's and its status is `success` |
| Cashier.PaidTotal | cashier/views.py:135 | the sum over the bill's successful payments; `PaidTotalAppend`, `PaidTotalIgnoresNonCounting` and `PaidTotalOfUnreferencedBill` state how it grows |
| Cashier.PaidTotalAppend | cashier/views.py:135 | appending a payment adds its amount to the bill's paid sum exactly when it is that bill's and successful |
| Cashier.PaidTotalIgnoresNonCounting | cashier/views.py:135 | pending, failed and refunded payments, and other bills' payments, leave the sum unchanged |
| Cashier.PaidTotalOfUnreferencedBill | cashier/views.py:187 | a bill no payment refers to has paid sum 0 |
| Cashier.SettledStatus | cashier/views.py:136-139 | paid ≥ total gives `paid`; 0 < paid < total gives `partially_paid`; otherwise the status is kept |
| Cashier.SettledStatusMonotone | cashier/views.py:136-137 | once the sum covers the total, further non-negative payments keep the bill paid |
| Cashier.RecordPayment | cashier/views.py:132-140 | the payment is appended; the bill is reclassified from its old paid sum plus the new amount (if successful) and re-saved; other bills are untouched |
| Cashier.ProcessPayment | cashier/views.py:116-150 | only `cashier`/`manager`; a missing bill is 404; a valid form appends one successful payment with the posted amount, method and notes, no gateway reference and a `PAY` + 10 reference, and the bill is settled from the previous sum plus this amount; otherwise nothing changes |
| Cashier.Confirmed | cashier/views.py:171 | the gateway confirmed the payment iff it answered, its `status` is true and its transaction status is `success` |
| Cashier.GatewayAmount | cashier/views.py:179 | the gateway's minor units as the recorded amount; see the line for this member under Left out |
| Cashier.VerifyGatewayPayment | cashier/views.py:152-201 | a payment is recorded iff the request is a POST, the gateway confirms both statuses and the posted bill exists; it carries the gateway amount and reference, a `PAY` + 10 reference of its own, and the signed-in user as processor; any other path leaves both tables unchanged |
| Cashier.CreateBill | cashier/views.py:59-94 | only `cashier`/`manager`; a valid form, whose discount is a required field, appends one `paid` bill with the posted patient, bill type, description and discount and total = amount − discount, and one successful cash payment of exactly that total, with no notes and no gateway reference |
| Cashier.ViewsPreserveWellFormed | cashier/models.py:75-79 | all three payment paths keep every payment attached to an existing bill |
| Cashier.CreateBillAgreesWithSettlement | cashier/views.py:76-87 | the new bill's successful payments sum to its total, so the settlement rule would also call it paid |
| Cashier.UnauthorizedCashierChangesNothing | cashier/views.py:62-64 | a role other than `cashier`/`manager` changes neither table |
| Stock.IsLowStock | accounts/models.py:105-106 | a medicine is low iff its quantity is at most its reorder level; `Stock.LowStockBoundary` fixes the edge |
| Stock.ReagentIsLowStock | accounts/models.py:159-160 | a reagent is low iff its stock is at most its minimum threshold |
| Stock.IsExpired | pharmacy/utils.py:12 | expired iff an expiry date is set and falls on or before today |
| Stock.IsExpiringSoon | pharmacy/utils.py:13 | expiring soon iff the expiry date is after today and at most 30 days ahead; `Stock.ExpiredAndExpiringSoonDisjoint` and `Stock.ExpiryWindowEdges` relate the two |
| Stock.LowStockBoundary | accounts/models.py:104-106 | a quantity equal to the reorder level (or threshold) is low; one more is not |
| Stock.ReportStatus | pharmacy/views.py:147 | the report says `LOW` iff the medicine is at or below its reorder level, else `OK` |
| Stock.InventoryAlerts | pharmacy/utils.py:6-16 | each list holds exactly the medicines that are expired, expiring within 30 days, or low on stock respectively, each as often as in the inventory and in inventory order |
| Stock.ExpiredAndExpiringSoonDisjoint | pharmacy/utils.py:12-13 | no medicine is both expired and expiring soon |
| Stock.ExpiryWindowEdges | pharmacy/utils.py:9-13 | expiry today is expired; today+30 is expiring soon; today+31 is neither; no date is neither |
| Stock.LowStockIndependentOfExpiry | pharmacy/utils.py:14 | changing a medicine's expiry never moves it in or out of the low-stock list |
| Pharmacy.SameName | pharmacy/views.py:69 | `name__iexact`: two names match iff their lower-case forms are equal |
| Pharmacy.QuantityToDeduct | pharmacy/views.py:70 | the prescription's quantity, or 1 when it has none |
| Pharmacy.FindMedicine | pharmacy/views.py:69 | the match is the first medicine whose name equals the prescription's ignoring case; none means no medicine matches |
| Pharmacy.Dispense | pharmacy/views.py:61-117 | only `pharmacist`/`manager` on a POST; an expired match or too little stock changes nothing; success deducts exactly the quantity, marks the prescription dispensed and appends one log entry; with no match, stock is untouched and the entry says `DISPENSED UNTRACKED ITEM` |
| Pharmacy.TotalStockUpdate | pharmacy/views.py:80 | changing one medicine's quantity changes the inventory total by the difference |
| Pharmacy.TrackedDispenseConservesUnits | pharmacy/views.py:79-93 | shelf units plus logged units are the same before and after a tracked dispense |
| Pharmacy.ExpiredBlocksWhateverTheStock | pharmacy/views.py:75-77 | an expired match blocks dispensing and changes nothing, however much stock there is |
| Pharmacy.RedispenseDeductsAgain | pharmacy/views.py:67-84 | the status is not checked: dispensing a dispensed prescription again deducts the quantity a second time |
| Pharmacy.FindMedicineDependsOnNames | pharmacy/views.py:69 | the lookup depends only on the medicines' names, so stock changes do not move the match |
| Inpatient.CeilDiv | inpatient/views.py:61 | the quotient q satisfies (q−1)·d < a ≤ q·d |
| Inpatient.BilledNights | inpatient/views.py:59-63 | at least one night; one for non-positive stays; otherwise the ceiling of seconds over 86400 |
| Inpatient.WholeDaysBillExactly | inpatient/views.py:61 | k whole days (k ≥ 1) bill exactly k nights |
| Inpatient.ExtraSecondBillsAnotherNight | inpatient/views.py:61 | one second past k whole days bills k + 1 nights |
| Inpatient.BilledNightsMonotone | inpatient/views.py:61-63 | a longer stay never bills fewer nights |
| Inpatient.Discharge | inpatient/views.py:47-81 | a POST on a non-discharged admission sets `is_discharged` and `discharged_at = now`, and charges the billed nights times the nightly rate; anything else changes nothing |
| Inpatient.DischargeIsOneShot | inpatient/views.py:50 | discharging the same admission again finds nothing and changes nothing |
| Inpatient.DaysSpent | inpatient/views.py:17-18 | at least one day, and exactly the nights that discharging at the same instant would bill |
| Inpatient.RowOf | inpatient/views.py:17-19 | a dashboard row names its admission, has at least one day, and its running bill is days × nightly rate |
| Inpatient.ActiveFrom | inpatient/views.py:13 | the listed ids are exactly the admissions not yet discharged, in strictly ascending id order (see the line for `Inpatient.WardDashboard` under Left out) |
| Inpatient.WardDashboard | inpatient/views.py:10-25 | the dashboard lists exactly the non-discharged admissions, once each and in ascending id order, each with at least one day and running bill = days × rate |
| Inpatient.RunningBillMatchesDischarge | inpatient/views.py:17-19 | a row's days and running bill are exactly what discharging at the same instant would charge |
| Visits.ParseStatus | doctors/views.py:154 | a status key is accepted iff it is the key of one of the statuses, and that status is returned |
| Visits.StatusKeysRoundTrip | appointments/models.py:6-13 | status keys round-trip, and exactly the six listed keys are valid |
| Visits.NewAppointment | appointments/models.py:21-27 | a new appointment is `pending`, with no vitals recorded |
| Visits.EnterVitals | nurses/views.py:11-28 | a missing appointment is 404; a GET changes nothing; a POST whose vitals convert to their column types and fit SQLite's signed 64-bit integers copies the four vitals and sets `ready`, changing nothing else; a POST with a vital that does not convert fails and changes nothing |
| Visits.VitalsStorable | appointments/models.py:24-27 | posted vitals are storable iff `temp` is absent or fits `DecimalField(4, 1)`, and `pulse` and `respiratory_rate` are each absent or integer text whose value lies in SQLite's signed 64-bit range; `bp` is free text |
| Visits.IsTempText | appointments/models.py:24 | an optional sign, an integer part of at most three significant digits, and optionally a point and one digit |
| Visits.IsIntegerText | appointments/models.py:26-27 | an optional sign and at least one digit, as `int()` converts, whose value lies in SQLite's signed 64-bit range |
| Visits.TempTextIgnoresLeadingZeros | appointments/models.py:24 | zeros in front of a temperature never change whether it can be stored |
| Visits.PaddedTempStores | appointments/models.py:24 | any run of zeros in front of `36.6` still fits the column |
| Visits.TempTextTooLong | appointments/models.py:24 | `1000` does not fit the column |
| Visits.IntegerValueRoundTrip | appointments/models.py:26-27 | `int()` of the decimal rendering of n, with or without a minus sign, gives back n or -n |
| Visits.IntegerTextBySignificantDigits | hospital/settings.py:96-101 | a numeral with at most 18 significant digits always fits SQLite's signed 64-bit INTEGER; one with 20 or more never does |
| Visits.OverflowingPulseFails | nurses/views.py:23 | a pulse of twenty nines converts with `int()` but overflows the column, so the save fails and the visit is unchanged |
| Visits.IntegerTextExamples | appointments/models.py:26-27 | `72` and `16` convert; a blank field and `72bpm` do not |
| Visits.VitalsConversionExamples | appointments/models.py:24-27 | typical readings save, and so does the temperature `0036.6` (written `"00" + "36.6"`) |
| Visits.VitalsRejectionExamples | appointments/models.py:24-27 | a blank pulse, a pulse with a unit, or a four-digit temperature fails to save and leaves the visit as it was |
| Visits.EnterVitalsFromAnyStatus | nurses/views.py:22 | a POST with storable vitals sets `ready` whatever the previous status |
| Visits.NurseQueue | nurses/views.py:6-9 | the queue is a permutation of the `pending` appointments (each as often as in the table), ordered by time |
| Visits.VitalsLeaveNurseQueue | nurses/views.py:8-22 | an appointment whose vitals were just saved is no longer in the nurse queue |
| Visits.UpdateAppointmentStatus | doctors/views.py:141-163 | only role `doctor`; someone else's or a missing appointment is 404; a valid key sets the status, and the notes only when non-empty notes were posted; an invalid or absent key changes nothing |
| Visits.AnyStatusReachable | doctors/views.py:154-155 | a doctor can move their appointment from any status to any status |
| Visits.UnknownStatusChangesNothing | doctors/views.py:160-161 | an unknown or absent status changes neither status nor notes |
| Labs.NewLabRequest | labs/models.py:30-34 | a new request is `pending`, not completed, without findings or attachment, and not in the lab queue |
| Labs.SubmitLabResult | labs/views.py:39-48 | a GET changes nothing; a POST on a missing request is 404; otherwise findings are replaced, the attachment only when a file is uploaded, status becomes `completed`, and `is_completed` and everything else are untouched |
| Labs.SubmitLabResultView | labs/views.py:37-39 | anonymous users go to login, signed-in users other than `lab_tech` get 403, and lab technicians run the submission |
| Labs.SubmitLabResultIdempotent | labs/views.py:42-46 | submitting the same form twice gives the same records as once |
| Labs.AttachmentKeptWithoutUpload | labs/views.py:43-44 | without an upload the previous attachment is kept |
| Labs.LabQueue | labs/views.py:12 | the queue is a permutation of the `paid` requests (each as often as in the table), oldest first |
| Labs.SubmittedLeavesQueue | labs/views.py:45 | a submitted request is no longer in the queue |

## Left out

- Persistence, templates and flash message texts: tables are sequences, and responses are outcome tags that keep only the redirect target and the flash level.
- Dashboard aggregations and statistics are query plumbing: the manager views, `cashier_dashboard`, `pharmacy_dashboard`, `doctor_dashboard`, and the counts and hard-coded chart of `lab_dashboard`.
- PDF generation with reportlab (`generate_inventory_report` and labs/utils.py) calls a foreign library. Only the LOW/OK column is modelled.
- The HTTP call to the payment gateway is I/O. Its answer is a parameter (`GatewayReply`), and `Unusable` stands for any exception raised by the request or by JSON decoding.
- Cashier.GatewayAmount: `amount / 100` turns the gateway's minor units into currency units. With money held as minor units this is the identity, so float rounding of `/ 100` is not modelled.
- E-mail sending, signals, forms, the admin, URL routing, settings, the context processor and the seed command are framework glue.
- `uuid4().hex` and `timezone.now()` are parameters. Collisions of the unique bill numbers and payment references are not modelled.
- Decimal fields become integer minor units and `total_seconds()` becomes integer seconds, so there is no floating point anywhere.
- `transaction.atomic` is modelled as the all-or-nothing result of a pure function. A database error inside it, which would roll back and flash an error, is not modelled.
- Case mapping covers ASCII letters only; Python's `lower()` also maps other Unicode letters.
- Access.ManagerRequired takes a signed-in user. For an anonymous visitor `request.user.role` raises AttributeError, because Django's AnonymousUser has no role.
- Access.MaintenanceGate: manager/middleware.py:4 imports `HospitalSetting` from manager/models.py, which defines only `Staff`. The module therefore fails at import time, and the maintenance flag it reads has no definition anywhere. The model takes the flag as a parameter standing in for that undefined setting and follows the rest of the file as written. No settings file registers the middleware either.
- pharmacy/views.py fails at import time, three times over. Line 16 imports `DispensingLog` from pharmacy/models.py, which defines only `Prescription` (line 4). Line 19 imports `Prescription` from doctors/models.py, which defines only `Doctor`. Line 23 applies `user_passes_test`, which is never imported. The model follows the file's evident intent. It uses the `Prescription` of pharmacy/models.py:4-24. That model has no `quantity` field, so `getattr(prescription, 'quantity', 1)` is always 1 there; `Pharmacy.Prescription.quantity` keeps the option open. The shape of `Pharmacy.LogEntry` (pharmacist, patient name, medication name, quantity, notes) is inferred from the two `DispensingLog.objects.create(...)` calls at pharmacy/views.py:87-93 and 105-111, since no `DispensingLog` model exists.
- pharmacy/views.py:185 uses `models.Q` without importing `models`, so searching the dispensing log fails at request time. The search is not modelled.
- inpatient/views.py uses `messages` at lines 43 and 79 without importing it, so both views raise NameError at request time. In `discharge_patient` the error comes after `admission.save()` at line 56: the discharge is stored, then the response is a server error. `Inpatient.Discharged` stands for the intended redirect to the ward dashboard.
- labs/views.py:47 reads `test.patient.name`. The `Patient` of patients/models.py:5-16 has no `name`, and the patient may be NULL, so the request is saved at line 46 and then raises. `Labs.Submitted` stands for the intended redirect to the lab dashboard.
- The `Medicine` model at accounts/models.py:90-106 has no `expiry_date`. Expiry is therefore optional, and a missing date means not expired, as the guard at pharmacy/views.py:75 treats it.
- doctors/views.py:5 imports `Appointment` and `MedicalRecord` from patients/models.py, which defines only `Patient`, so the module fails at import time. The model follows its evident intent with the appointment of appointments/models.py. That model has no `notes` field; notes are modelled as an optional field so that `update_appointment_status` can set them.
- Pharmacy.FindMedicine: `.first()` on the name-ordered inventory is modelled as the first match in inventory order. The inventory sequence is assumed to be held in that order, and the case-insensitive comparison is ASCII-only.
- Inpatient.WardDashboard: the query at inpatient/views.py:13 has no `order_by`, and `Admission` (inpatient/models.py:15-25) declares no `Meta.ordering`, so the database may return the rows in any order. The model fixes one choice, ascending id order; `Inpatient.ActiveFrom` makes the same choice.
- Visits.NurseQueue and Labs.LabQueue: the database leaves the order among rows with equal keys unspecified. The model fixes one choice: ties keep table order (`Collections.SortByIsStable`). It also assumes every lab request has a creation time.
- Visits.VitalsStorable: the conversion rule is narrower than Python's, and the integer columns are bounded as SQLite bounds them. An integer vital must lie in SQLite's signed 64-bit INTEGER range (hospital/settings.py:96-101); a larger one converts with `int()` but makes the save raise `OverflowError`, which the model answers with `SaveFailed` (`Visits.OverflowingPulseFails`). The rule does accept leading zeros, as `Decimal()` and `int()` do (`Visits.TempTextIgnoresLeadingZeros`). `int()` and `Decimal()` also accept surrounding whitespace, underscores between digits, a bare point such as `36.` or `.5`, and `Decimal()` accepts exponents; extra decimal places of `temp` are rounded by some database back-ends. The model counts all of these as failures, and so `Visits.EnterVitals` answers `SaveFailed` for them. The 20-character limit on `bp` is enforced only by some back-ends and is not modelled.
- Not modelled: `add_medicine_stock`, `log_vitals` and `record_vitals` (which creates rows of a `Vitals` model that is not part of this model) are plain inserts with no rule. The read-only listings `bill_detail`, `all_bills`, `all_payments`, `doctor_patients`, `patient_detail` and `doctor_appointments` are queries; `add_medical_record` is a form save.
- `verify_paystack_payment` applies no role check, only `login_required`, and does not check whether a gateway reference was already recorded. The model reproduces both.

=== FILE: access.dfy ===
/**
 Access decisions taken before any view body runs: the three role-gate
 decorators, Django's `login_required` in front of them, the role-to-dashboard
 dispatch, the "already signed in" short-cut of the register and login pages,
 and the maintenance-mode middleware.

 A view is an arbitrary function from its request to its response; a gate
 either runs it on the very request it received or answers on its own.
 */
module Access {
  import opened Common

  type UserId = nat

  /** An account; `role` is None when the column holds NULL. */
  datatype User = User(id: UserId, role: Option<string>)

  /** `request.user`: either an anonymous visitor or a signed-in account. */
  datatype Principal = Anonymous | SignedIn(user: User)

  /** Flash message level attached to a redirect. */
  datatype Flash = NoFlash | ErrorFlash | WarningFlash

  /** A redirect to a named route, carrying the flash message queued with it. */
  datatype Redirect = Redirect(target: string, flash: Flash)

  /** What a gated view answers: the view's own response, a redirect, or HTTP 403. */
  datatype Guarded<R> = Ran(response: R) | Redirected(redirect: Redirect) | PermissionDenied

  /** `settings.LOGIN_URL`. */
  const LoginUrl: string := "/accounts/login/"

  /** `role in roles` on a possibly-NULL role; None is in no list. */
  predicate RoleIn(role: Option<string>, roles: seq<string>) {
    role.Some? && role.value in roles
  }

  /** The role of a signed-in principal, None for an anonymous visitor. */
  function RoleOf(p: Principal): Option<string> {
    if p.SignedIn? then p.user.role else None
  }

  // ---------------------------------------------------------------------------
  // Decorators
  // ---------------------------------------------------------------------------

  /** Django's `login_required`: anonymous visitors are sent to the login page. */
  function LoginRequired<Req, R>(p: Principal, view: Req -> R, req: Req): (g: Guarded<R>)
    ensures g.Ran? <==> p.SignedIn?
    ensures g.Ran? ==> g.response == view(req)
    ensures !g.Ran? ==> g == Redirected(Redirect(LoginUrl, NoFlash))
  {
    if p.SignedIn? then Ran(view(req)) else Redirected(Redirect(LoginUrl, NoFlash))
  }

  /** The role test of `hospital_role_required`: a listed role, or a manager. */
  predicate StationAdmits(allowed: seq<string>, role: Option<string>) {
    RoleIn(role, allowed) || role == Some("manager")
  }

  /** `hospital_role_required(allowed)` applied to a view. */
  function HospitalRoleRequired<Req, R>(allowed: seq<string>, p: Principal, view: Req -> R, req: Req): (g: Guarded<R>)
    ensures p.Anonymous? ==> g == Redirected(Redirect("login", NoFlash))
    ensures g.Ran? <==> p.SignedIn? && StationAdmits(allowed, p.user.role)
    ensures g.Ran? ==> g.response == view(req)
    ensures p.SignedIn? && !g.Ran? ==> g == Redirected(Redirect("main_dashboard", ErrorFlash))
    ensures !g.PermissionDenied?
  {
    if !p.SignedIn? then Redirected(Redirect("login", NoFlash))
    else if RoleIn(p.user.role, allowed) || p.user.role == Some("manager") then Ran(view(req))
    else Redirected(Redirect("main_dashboard", ErrorFlash))
  }

  /** `lab_tech_only` applied to a view: anything but a signed-in "lab_tech" is refused with 403. */
  function LabTechOnly<Req, R>(p: Principal, view: Req -> R, req: Req): (g: Guarded<R>)
    ensures g.Ran? <==> p.SignedIn? && p.user.role == Some("lab_tech")
    ensures g.Ran? ==> g.response == view(req)
    ensures !g.Ran? ==> g.PermissionDenied?
  {
    if p.SignedIn? && p.user.role == Some("lab_tech") then Ran(view(req)) else PermissionDenied
  }

  /** `manager_required` applied to a view; the role test ignores letter case. */
  function ManagerRequired<Req, R>(u: User, view: Req -> R, req: Req): (g: Guarded<R>)
    ensures g.Ran? <==> Truthy(u.role) && Lower(u.role.value) == "manager"
    ensures g.Ran? ==> g.response == view(req)
    ensures !g.Ran? ==> g == Redirected(Redirect("home", ErrorFlash))
  {
    if !Truthy(u.role) || Lower(u.role.value) != "manager" then Redirected(Redirect("home", ErrorFlash))
    else Ran(view(req))
  }

  /** A manager passes every station gate, whatever the station lists, even nothing. */
  lemma ManagerPassesEveryStation<Req, R>(allowed: seq<string>, id: UserId, view: Req -> R, req: Req)
    ensures HospitalRoleRequired(allowed, SignedIn(User(id, Some("manager"))), view, req) == Ran(view(req))
  {
  }

  /**
   Every principal `lab_tech_only` admits is also admitted by a station gate
   listing "lab_tech", but not conversely: the station gate also admits managers.
   */
  lemma LabTechOnlyStricterThanStation<Req, R>(p: Principal, view: Req -> R, req: Req)
    ensures LabTechOnly(p, view, req).Ran? ==> HospitalRoleRequired(["lab_tech"], p, view, req).Ran?
    ensures var m := SignedIn(User(0, Some("manager")));
            LabTechOnly(m, view, req) == PermissionDenied && HospitalRoleRequired(["lab_tech"], m, view, req).Ran?
  {
  }

  /** `lab_tech_only` compares roles exactly: "Lab_Tech" is refused. */
  lemma LabTechOnlyIsCaseSensitive<Req, R>(id: UserId, view: Req -> R, req: Req)
    ensures LabTechOnly(SignedIn(User(id, Some("Lab_Tech"))), view, req) == PermissionDenied
  {
  }

  /** `manager_required` ignores case, refuses NULL and empty roles. */
  lemma ManagerRequiredCases<Req, R>(id: UserId, view: Req -> R, req: Req)
    ensures ManagerRequired(User(id, Some("Manager")), view, req) == Ran(view(req))
    ensures ManagerRequired(User(id, Some("MANAGER")), view, req) == Ran(view(req))
    ensures ManagerRequired(User(id, None), view, req) == Redirected(Redirect("home", ErrorFlash))
    ensures ManagerRequired(User(id, Some("")), view, req) == Redirected(Redirect("home", ErrorFlash))
  {
    assert Lower("Manager") == "manager";
    assert Lower("MANAGER") == "manager";
  }

  /**
   The manager gate admits exactly the users whom the login dispatch sends to
   the manager dashboard: both read the role the same way.
   */
  lemma ManagerRequiredAgreesWithDispatch<Req, R>(u: User, view: Req -> R, req: Req)
    ensures ManagerRequired(u, view, req).Ran? <==> DashboardRedirect(u.role).target == "manager_dashboard"
  {
    if Truthy(u.role) && Lower(u.role.value) in Dashboards {
      var k := Lower(u.role.value);
      assert Dashboards[k] == "manager_dashboard" ==> k == "manager";
    }
  }

  // ---------------------------------------------------------------------------
  // Role-to-dashboard dispatch
  // ---------------------------------------------------------------------------

  /** The dashboards a (lower-cased) role is sent to; other roles have none. */
  const Dashboards: map<string, string> := map[
    "doctor" := "doctor_dashboard",
    "patient" := "patient_dashboard",
    "cashier" := "cashier_dashboard",
    "manager" := "manager_dashboard",
    "staff" := "staff_dashboard"
  ]

  /** `dashboard_redirect`: the route a signed-in user is sent to after login. */
  function DashboardRedirect(role: Option<string>): (r: Redirect)
    ensures Truthy(role) && Lower(role.value) in Dashboards ==>
              r == Redirect(Dashboards[Lower(role.value)], NoFlash)
    ensures !(Truthy(role) && Lower(role.value) in Dashboards) ==>
              r == Redirect("home", WarningFlash)
  {
    var normalized := if Truthy(role) then Some(Lower(role.value)) else None;
    if normalized == Some("doctor") then Redirect("doctor_dashboard", NoFlash)
    else if normalized == Some("patient") then Redirect("patient_dashboard", NoFlash)
    else if normalized == Some("cashier") then Redirect("cashier_dashboard", NoFlash)
    else if normalized == Some("manager") then Redirect("manager_dashboard", NoFlash)
    else if normalized == Some("staff") then Redirect("staff_dashboard", NoFlash)
    else Redirect("home", WarningFlash)
  }

  /** The dispatch ignores letter case. */
  lemma DashboardRedirectIgnoresCase(s: string)
    ensures DashboardRedirect(Some(s)) == DashboardRedirect(Some(Lower(s)))
  {
    LowerIdempotent(s);
  }

  /** Pharmacists have no dashboard: home with a warning. */
  lemma PharmacistFallsThrough()
    ensures DashboardRedirect(Some("pharmacist")) == Redirect("home", WarningFlash)
  {
    LowerFixesLowerCase("pharmacist");
    assert forall k | k in Dashboards :: |k| != |"pharmacist"|;
  }

  /** Lab technicians have no dashboard either. */
  lemma LabTechFallsThrough()
    ensures DashboardRedirect(Some("lab_tech")) == Redirect("home", WarningFlash)
  {
    LowerFixesLowerCase("lab_tech");
    assert forall k | k in Dashboards :: |k| != |"lab_tech"|;
  }

  /** A NULL or empty role has no dashboard either. */
  lemma DashboardRedirectUnsetRole()
    ensures DashboardRedirect(Some("")) == Redirect("home", WarningFlash)
    ensures DashboardRedirect(None) == Redirect("home", WarningFlash)
  {
  }

  /** `register` and `user_login`: a signed-in user is sent straight to the dashboard route. */
  function AnonymousOnly<Req, R>(p: Principal, view: Req -> R, req: Req): (g: Guarded<R>)
    ensures g.Ran? <==> p.Anonymous?
    ensures g.Ran? ==> g.response == view(req)
    ensures !g.Ran? ==> g == Redirected(Redirect("dashboard", NoFlash))
  {
    if p.SignedIn? then Redirected(Redirect("dashboard", NoFlash)) else Ran(view(req))
  }

  // ---------------------------------------------------------------------------
  // Maintenance mode
  // ---------------------------------------------------------------------------

  /** Paths that stay reachable during maintenance. */
  const MaintenanceExemptPrefixes: seq<string> := ["/accounts/login/", "/admin/", "/static/", "/media/"]

  /** The middleware's verdict: hand the request on, or answer with the maintenance page. */
  datatype Passage = PassThrough | MaintenancePage(status: int)

  const ServiceUnavailable: int := 503

  /** `any(path.startswith(p) for p in prefixes)`. */
  function StartsWithAny(path: string, prefixes: seq<string>): (b: bool)
    ensures b <==> exists k :: 0 <= k < |prefixes| && StartsWith(path, prefixes[k])
  {
    if prefixes == [] then false
    else StartsWith(path, prefixes[0]) || StartsWithAny(path, prefixes[1..])
  }

  /** `MaintenanceModeMiddleware.__call__` with the stored flag passed in. */
  function MaintenanceGate(maintenanceOn: bool, p: Principal, path: string): (r: Passage)
    ensures !maintenanceOn ==> r == PassThrough
    ensures p.SignedIn? && p.user.role == Some("manager") ==> r == PassThrough
    ensures r != PassThrough ==> r == MaintenancePage(ServiceUnavailable)
    ensures r == MaintenancePage(ServiceUnavailable) <==>
              maintenanceOn
              && !(p.SignedIn? && p.user.role == Some("manager"))
              && forall k :: 0 <= k < |MaintenanceExemptPrefixes| ==> !StartsWith(path, MaintenanceExemptPrefixes[k])
  {
    if maintenanceOn && !(p.SignedIn? && p.user.role == Some("manager"))
       && !StartsWithAny(path, MaintenanceExemptPrefixes)
    then MaintenancePage(ServiceUnavailable)
    else PassThrough
  }

  /**
   The exemption is a prefix test: a file under /static/ and the login page
   itself pass, "/stat" does not.
   */
  lemma MaintenanceExemptionIsPrefix(p: Principal)
    requires !(p.SignedIn? && p.user.role == Some("manager"))
    ensures MaintenanceGate(true, p, "/static/css/a.css") == PassThrough
    ensures MaintenanceGate(true, p, "/stat") == MaintenancePage(503)
    ensures MaintenanceGate(true, p, "/accounts/login/") == PassThrough
  {
    assert StartsWith("/static/css/a.css", "/static/");
    assert StartsWith("/accounts/login/", "/accounts/login/");
  }

  /** Being signed out never earns the manager bypass. */
  lemma AnonymousNeverBypasses(path: string)
    requires !StartsWithAny(path, MaintenanceExemptPrefixes)
    ensures MaintenanceGate(true, Anonymous, path) == MaintenancePage(503)
    ensures MaintenanceGate(true, SignedIn(User(0, Some("manager"))), path) == PassThrough
  {
  }
}

=== FILE: activity.dfy ===
/**
 The colour an activity-log entry is shown in, chosen from keywords that
 occur anywhere in its action text, ignoring letter case
 (`ActivityLog.action_color` in accounts/models.py).
 */
module ActivityLog {
  import opened Common

  datatype Colour = Danger | Success | Warning | Info

  const DangerWords: seq<string> := ["deactivate", "delete", "remove", "error"]
  const SuccessWords: seq<string> := ["activate", "verified", "success", "login"]
  const WarningWords: seq<string> := ["role", "change"]

  /** Some word of the list occurs in s. */
  ghost predicate MentionsAny(s: string, words: seq<string>) {
    exists k :: 0 <= k < |words| && Occurs(words[k], s)
  }

  /** The keyword scan agrees with the occurrence specification, word by word. */
  lemma {:induction false} ContainsAnyIffMentions(s: string, words: seq<string>)
    ensures ContainsAny(s, words) <==> MentionsAny(s, words)
  {
    forall k | 0 <= k < |words|
      ensures Contains(s, words[k]) <==> Occurs(words[k], s)
    {
      ContainsIffOccurs(s, words[k]);
    }
  }

  /** The badge colour of an action: danger words win, then success words, then role/change. */
  function ActionColor(action: string): (c: Colour)
    ensures c == Danger <==> MentionsAny(Lower(action), DangerWords)
    ensures c == Success <==>
              !MentionsAny(Lower(action), DangerWords) && MentionsAny(Lower(action), SuccessWords)
    ensures c == Warning <==>
              !MentionsAny(Lower(action), DangerWords) && !MentionsAny(Lower(action), SuccessWords)
              && MentionsAny(Lower(action), WarningWords)
    ensures c == Info <==>
              !MentionsAny(Lower(action), DangerWords) && !MentionsAny(Lower(action), SuccessWords)
              && !MentionsAny(Lower(action), WarningWords)
  {
    var act := Lower(action);
    ContainsAnyIffMentions(act, DangerWords);
    ContainsAnyIffMentions(act, SuccessWords);
    ContainsAnyIffMentions(act, WarningWords);
    if ContainsAny(act, DangerWords) then Danger
    else if ContainsAny(act, SuccessWords) then Success
    else if Contains(act, "role") || Contains(act, "change") then Warning
    else Info
  }

  /** Letter case of the action never changes its colour. */
  lemma ActionColorIgnoresCase(action: string)
    ensures ActionColor(action) == ActionColor(Lower(action))
  {
    LowerIdempotent(action);
  }

  /** "deactivate" contains "activate", yet danger takes precedence. */
  lemma DeactivateIsDanger(rest: string)
    ensures Occurs("activate", "deactivate")
    ensures ActionColor("Deactivate" + rest) == Danger
  {
    var d := "deactivate";
    assert StartsWith(d[2..], "activate");
    LowerAppend("Deactivate", rest);
    var act := Lower("Deactivate" + rest);
    LowerDeactivate("Deactivate");
    assert StartsWith(act[0..], DangerWords[0]) by {
      assert act[0..] == act;
      assert act[..|d|] == d;
    }
  }

  /** The lower-case form of "Deactivate"; stated for a name equal to the literal, so the proof reads it one character at a time. */
  lemma LowerDeactivate(s: string)
    requires s == "Deactivate"
    ensures Lower(s) == "deactivate"
  {
    var r := Lower(s);
    assert r[0] == 'd' && r[1] == 'e' && r[2] == 'a' && r[3] == 'c' && r[4] == 't';
    assert r[5] == 'i' && r[6] == 'v' && r[7] == 'a' && r[8] == 't' && r[9] == 'e';
  }
}

=== FILE: cashier.dfy ===
/**
 Billing and settlement (cashier/models.py, cashier/views.py).

 Money is an integer number of minor units (hundredths of the currency
 unit). Bills and payments are the rows of two tables; a bill's id is its
 position in the bill table. Every path that records a payment re-derives
 the bill's status from the sum of its successful payments.
 */
module Cashier {
  import opened Common
  import opened Access
  import Identifiers

  type BillId = nat

  // ---------------------------------------------------------------------------
  // Enumerations and their stored keys
  // ---------------------------------------------------------------------------

  datatype BillType = Consultation | Treatment | Medicine | Test | Procedure | Other
  datatype BillStatus = Pending | Paid | PartiallyPaid | Cancelled
  datatype PaymentMethod = Cash | Card | Paystack | BankTransfer | Insurance
  datatype PaymentStatus = Pending | Success | Failed | Refunded

  const AllBillStatuses: seq<BillStatus> :=
    [BillStatus.Pending, Paid, PartiallyPaid, Cancelled]
  const AllPaymentStatuses: seq<PaymentStatus> :=
    [PaymentStatus.Pending, Success, Failed, Refunded]
  const AllPaymentMethods: seq<PaymentMethod> :=
    [Cash, Card, Paystack, BankTransfer, Insurance]

  function BillStatusKey(s: BillStatus): string {
    match s
    case Pending => "pending"
    case Paid => "paid"
    case PartiallyPaid => "partially_paid"
    case Cancelled => "cancelled"
  }

  function PaymentStatusKey(s: PaymentStatus): string {
    match s
    case Pending => "pending"
    case Success => "success"
    case Failed => "failed"
    case Refunded => "refunded"
  }

  function PaymentMethodKey(m: PaymentMethod): string {
    match m
    case Cash => "cash"
    case Card => "card"
    case Paystack => "paystack"
    case BankTransfer => "bank_transfer"
    case Insurance => "insurance"
  }

  /** The first choice whose stored key is k, as a ChoiceField validates it. */
  function ParseChoice<E>(k: string, choices: seq<E>, key: E -> string): (r: Option<E>)
    ensures r.Some? ==> r.value in choices && key(r.value) == k
    ensures r.None? ==> forall i :: 0 <= i < |choices| ==> key(choices[i]) != k
  {
    if choices == [] then None
    else if key(choices[0]) == k then Some(choices[0])
    else ParseChoice(k, choices[1..], key)
  }

  function ParseBillStatus(k: string): Option<BillStatus> {
    ParseChoice(k, AllBillStatuses, BillStatusKey)
  }

  function ParsePaymentStatus(k: string): Option<PaymentStatus> {
    ParseChoice(k, AllPaymentStatuses, PaymentStatusKey)
  }

  function ParsePaymentMethod(k: string): Option<PaymentMethod> {
    ParseChoice(k, AllPaymentMethods, PaymentMethodKey)
  }

  /** Bill status keys round-trip, and exactly the four listed keys are valid. */
  lemma BillStatusChoices(s: BillStatus, k: string)
    ensures ParseBillStatus(BillStatusKey(s)) == Some(s)
    ensures ParseBillStatus(k).Some? <==> k in ["pending", "paid", "partially_paid", "cancelled"]
  {
  }

  /** Payment status keys round-trip, and exactly the four listed keys are valid. */
  lemma PaymentStatusChoices(s: PaymentStatus, k: string)
    ensures ParsePaymentStatus(PaymentStatusKey(s)) == Some(s)
    ensures ParsePaymentStatus(k).Some? <==> k in ["pending", "success", "failed", "refunded"]
  {
  }

  /** Payment method keys round-trip, and exactly the five listed keys are valid. */
  lemma PaymentMethodChoices(m: PaymentMethod, k: string)
    ensures ParsePaymentMethod(PaymentMethodKey(m)) == Some(m)
    ensures ParsePaymentMethod(k).Some? <==> k in ["cash", "card", "paystack", "bank_transfer", "insurance"]
  {
  }

  // ---------------------------------------------------------------------------
  // Records
  // ---------------------------------------------------------------------------

  datatype Bill = Bill(
    number: string,
    patient: nat,
    billType: BillType,
    description: string,
    amount: Money,
    discount: Money,
    total: Money,
    status: BillStatus,
    createdBy: Option<UserId>)

  datatype Payment = Payment(
    bill: BillId,
    reference: string,
    amount: Money,
    paymentMethod: PaymentMethod,
    status: PaymentStatus,
    gatewayReference: Option<string>,
    processedBy: Option<UserId>,
    notes: Option<string>)

  /** The bill and payment tables. */
  datatype Ledger = Ledger(bills: seq<Bill>, payments: seq<Payment>)

  /** Every payment belongs to a bill that exists (the foreign key). */
  predicate WellFormed(l: Ledger) {
    forall i :: 0 <= i < |l.payments| ==> l.payments[i].bill < |l.bills|
  }

  // ---------------------------------------------------------------------------
  // Bill.save
  // ---------------------------------------------------------------------------

  /** `Bill.save`: the stored total is recomputed from amount and discount; nothing else changes. */
  function SaveBill(b: Bill): (r: Bill)
    ensures r.total + r.discount == r.amount
    ensures r.(total := b.total) == b
  {
    b.(total := b.amount - b.discount)
  }

  /** Saving twice stores the same total as saving once. */
  lemma SaveBillIdempotent(b: Bill)
    ensures SaveBill(SaveBill(b)) == SaveBill(b)
  {
  }

  /**
   The fields of a valid bill form. Every field is required, the discount
   included: its input is pre-filled with 0, but a cleared input fails
   validation.
   */
  datatype BillForm = BillForm(
    patient: nat,
    billType: BillType,
    description: string,
    amount: Money,
    discount: Money)

  /** A bill built from the form before its first save: the posted amount and discount, status pending. */
  function DraftBill(f: BillForm, number: string, creator: UserId): (b: Bill)
    ensures b.patient == f.patient && b.billType == f.billType && b.description == f.description
    ensures b.discount == f.discount && b.amount == f.amount
    ensures b.status == BillStatus.Pending && b.createdBy == Some(creator)
  {
    Bill(number, f.patient, f.billType, f.description, f.amount, f.discount, 0,
         BillStatus.Pending, Some(creator))
  }

  /** With the discount left at its pre-filled 0, the saved total is the amount. */
  lemma DefaultDiscountTotalIsAmount(f: BillForm, number: string, creator: UserId)
    requires f.discount == 0
    ensures SaveBill(DraftBill(f, number, creator)).total == f.amount
  {
  }

  // ---------------------------------------------------------------------------
  // Settlement
  // ---------------------------------------------------------------------------

  /** Whether a payment counts toward a bill: it is the bill's and it succeeded. */
  predicate Counts(p: Payment, id: BillId) {
    p.bill == id && p.status == PaymentStatus.Success
  }

  /** `sum(p.amount for p in bill.payments.filter(status='success'))`. */
  function PaidTotal(ps: seq<Payment>, id: BillId): Money {
    if ps == [] then 0
    else (if Counts(ps[0], id) then ps[0].amount else 0) + PaidTotal(ps[1..], id)
  }

  /** Appending one payment adds its amount to the sum exactly when it counts. */
  lemma {:induction false} PaidTotalAppend(ps: seq<Payment>, p: Payment, id: BillId)
    ensures PaidTotal(ps + [p], id) == PaidTotal(ps, id) + (if Counts(p, id) then p.amount else 0)
  {
    if ps != [] {
      assert (ps + [p])[1..] == ps[1..] + [p];
      PaidTotalAppend(ps[1..], p, id);
    }
  }

  /** Failed, pending and refunded payments, and other bills' payments, never change the sum. */
  lemma PaidTotalIgnoresNonCounting(ps: seq<Payment>, p: Payment, id: BillId)
    requires !Counts(p, id)
    ensures PaidTotal(ps + [p], id) == PaidTotal(ps, id)
  {
    PaidTotalAppend(ps, p, id);
  }

  /** A bill none of whose payments refer to it has nothing paid. */
  lemma {:induction false} PaidTotalOfUnreferencedBill(ps: seq<Payment>, id: BillId)
    requires forall i :: 0 <= i < |ps| ==> ps[i].bill != id
    ensures PaidTotal(ps, id) == 0
  {
    if ps != [] {
      PaidTotalOfUnreferencedBill(ps[1..], id);
    }
  }

  /** The status the views assign once `paid` has been summed; otherwise the old status stays. */
  function SettledStatus(current: BillStatus, total: Money, paid: Money): (s: BillStatus)
    ensures paid >= total ==> s == Paid
    ensures 0 < paid < total ==> s == PartiallyPaid
    ensures paid <= 0 && paid < total ==> s == current
  {
    if paid >= total then Paid
    else if paid > 0 then PartiallyPaid
    else current
  }

  /** Once the paid sum covers the total, paying more keeps the bill paid. */
  lemma SettledStatusMonotone(current: BillStatus, total: Money, paid: Money, more: Money)
    requires paid >= total && more >= 0
    ensures SettledStatus(current, total, paid + more) == Paid
  {
  }

  /**
   Appends payment p for bill `id`, then reclassifies the bill from the new
   sum of its successful payments and saves it.
   */
  function RecordPayment(l: Ledger, id: BillId, p: Payment): (r: Ledger)
    requires id < |l.bills| && p.bill == id
    ensures r.payments == l.payments + [p]
    ensures |r.bills| == |l.bills|
    ensures forall j :: 0 <= j < |l.bills| && j != id ==> r.bills[j] == l.bills[j]
    ensures var b := l.bills[id];
            var paid := PaidTotal(l.payments, id) + (if p.status == PaymentStatus.Success then p.amount else 0);
            r.bills[id] == SaveBill(b.(status := SettledStatus(b.status, b.total, paid)))
  {
    var payments := l.payments + [p];
    PaidTotalAppend(l.payments, p, id);
    var b := l.bills[id];
    var paid := PaidTotal(payments, id);
    Ledger(l.bills[id := SaveBill(b.(status := SettledStatus(b.status, b.total, paid)))], payments)
  }

  // ---------------------------------------------------------------------------
  // Views
  // ---------------------------------------------------------------------------

  /** Roles admitted to the cashier views. */
  const CashierRoles: seq<string> := ["cashier", "manager"]

  datatype CashierOutcome =
    | AccessDenied          // redirect to the dashboard with an error
    | BillNotFound          // HTTP 404
    | FormShown             // GET or an invalid form: the form is rendered again
    | PaymentRecorded       // redirect to the bill
    | BillCreated(id: BillId)
    | NotPosted             // redirect to the cashier dashboard
    | VerificationFailed    // the gateway did not confirm the payment
    | VerificationError     // the gateway reply was unusable, or the bill could not be found
    | PaymentVerified

  /** The valid fields of the payment form. */
  datatype PaymentForm = PaymentForm(amount: Money, paymentMethod: PaymentMethod, notes: Option<string>)

  /**
   `process_payment`: a manual payment is stored as successful, so it always
   counts toward the sum the bill is reclassified from. `submission` is None
   for a GET or a form that fails validation.
   */
  function ProcessPayment(l: Ledger, u: User, id: BillId, submission: Option<PaymentForm>, token: string)
    : (r: (Ledger, CashierOutcome))
    requires IsUuidHex(token)
    ensures !RoleIn(u.role, CashierRoles) ==> r == (l, AccessDenied)
    ensures RoleIn(u.role, CashierRoles) && id >= |l.bills| ==> r == (l, BillNotFound)
    ensures RoleIn(u.role, CashierRoles) && id < |l.bills| && submission.None? ==> r == (l, FormShown)
    ensures r.1 == PaymentRecorded <==> RoleIn(u.role, CashierRoles) && id < |l.bills| && submission.Some?
    ensures r.1 == PaymentRecorded ==>
              var f := submission.value;
              var b := l.bills[id];
              && |r.0.payments| == |l.payments| + 1
              && r.0.payments[..|l.payments|] == l.payments
              && var p := r.0.payments[|l.payments|];
              && p.bill == id && p.amount == f.amount && p.paymentMethod == f.paymentMethod && p.notes == f.notes
              && p.status == PaymentStatus.Success && p.processedBy == Some(u.id)
              && p.gatewayReference.None?
              && Identifiers.IsTagged(p.reference, "PAY", 10)
              && |r.0.bills| == |l.bills|
              && (forall j :: 0 <= j < |l.bills| && j != id ==> r.0.bills[j] == l.bills[j])
              && r.0.bills[id] == SaveBill(b.(status := SettledStatus(b.status, b.total,
                                                                      PaidTotal(l.payments, id) + f.amount)))
  {
    if !RoleIn(u.role, CashierRoles) then (l, AccessDenied)
    else if id >= |l.bills| then (l, BillNotFound)
    else match submission
      case None => (l, FormShown)
      case Some(f) =>
        var p := Payment(id, Identifiers.PaymentReference(token, 10), f.amount, f.paymentMethod,
                         PaymentStatus.Success, None, Some(u.id), f.notes);
        (RecordPayment(l, id, p), PaymentRecorded)
  }

  /** What the payment gateway's verify endpoint answered, if anything usable. */
  datatype GatewayReply =
    | Unusable                                               // request or JSON decoding raised
    | Reply(status: bool, dataStatus: string, amount: int)   // amount in the gateway's minor units

  /** Gateway minor units divided by 100 are currency units, i.e. the same count of minor units. */
  function GatewayAmount(minorUnits: int): Money {
    minorUnits
  }

  /** The gateway confirmed the payment: both its status flag and the transaction status say so. */
  predicate Confirmed(reply: GatewayReply) {
    reply.Reply? && reply.status && reply.dataStatus == "success"
  }

  /**
   `verify_paystack_payment`: records a gateway payment only when the gateway
   confirmed it and the posted bill exists; any failure leaves both tables as
   they were (a missing bill raises inside the `try` and is reported like a
   gateway error).
   */
  function VerifyGatewayPayment(l: Ledger, u: User, isPost: bool, reference: Option<string>,
                                reply: GatewayReply, billId: Option<BillId>, token: string)
    : (r: (Ledger, CashierOutcome))
    requires IsUuidHex(token)
    ensures r.1 != PaymentVerified ==> r.0 == l
    ensures r.1 == PaymentVerified <==>
              isPost && Confirmed(reply) && billId.Some? && billId.value < |l.bills|
    ensures !isPost ==> r.1 == NotPosted
    ensures isPost && !Confirmed(reply) ==> r.1 in {VerificationFailed, VerificationError}
    ensures r.1 == PaymentVerified ==>
              var id := billId.value;
              var b := l.bills[id];
              var amount := GatewayAmount(reply.amount);
              && |r.0.payments| == |l.payments| + 1
              && r.0.payments[..|l.payments|] == l.payments
              && var p := r.0.payments[|l.payments|];
              && p.bill == id && p.amount == amount && p.paymentMethod == Paystack
              && p.status == PaymentStatus.Success && p.gatewayReference == reference
              && p.processedBy == Some(u.id) && p.notes.None?
              && Identifiers.IsTagged(p.reference, "PAY", 10)
              && |r.0.bills| == |l.bills|
              && (forall j :: 0 <= j < |l.bills| && j != id ==> r.0.bills[j] == l.bills[j])
              && r.0.bills[id] == SaveBill(b.(status := SettledStatus(b.status, b.total,
                                                                      PaidTotal(l.payments, id) + amount)))
  {
    if !isPost then (l, NotPosted)
    else if reply.Unusable? then (l, VerificationError)
    else if !(reply.status && reply.dataStatus == "success") then (l, VerificationFailed)
    else if billId.None? || billId.value >= |l.bills| then (l, VerificationError)
    else
      var id := billId.value;
      var p := Payment(id, Identifiers.PaymentReference(token, 10), GatewayAmount(reply.amount), Paystack,
                       PaymentStatus.Success, reference, Some(u.id), None);
      (RecordPayment(l, id, p), PaymentVerified)
  }

  /**
   `create_bill`: saves a new pending bill, records one successful cash
   payment of its whole total, then marks it paid and saves it again.
   `form` is None for a GET or a form that fails validation.
   */
  function CreateBill(l: Ledger, u: User, form: Option<BillForm>, billToken: string, payToken: string)
    : (r: (Ledger, CashierOutcome))
    requires IsUuidHex(billToken) && IsUuidHex(payToken)
    ensures !RoleIn(u.role, CashierRoles) ==> r == (l, AccessDenied)
    ensures RoleIn(u.role, CashierRoles) && form.None? ==> r == (l, FormShown)
    ensures r.1.BillCreated? <==> RoleIn(u.role, CashierRoles) && form.Some?
    ensures r.1.BillCreated? ==>
              var f := form.value;
              var id := r.1.id;
              && id == |l.bills|
              && |r.0.bills| == id + 1 && r.0.bills[..id] == l.bills
              && var b := r.0.bills[id];
              && b.patient == f.patient && b.billType == f.billType && b.description == f.description
              && b.amount == f.amount && b.discount == f.discount
              && b.total == f.amount - f.discount
              && b.status == Paid && b.createdBy == Some(u.id)
              && Identifiers.IsTagged(b.number, "BILL", 8)
              && |r.0.payments| == |l.payments| + 1 && r.0.payments[..|l.payments|] == l.payments
              && var p := r.0.payments[|l.payments|];
              && p.bill == id && p.amount == b.total && p.paymentMethod == Cash
              && p.status == PaymentStatus.Success && p.processedBy == Some(u.id)
              && p.notes.None? && p.gatewayReference.None?
              && Identifiers.IsTagged(p.reference, "PAY", 8)
  {
    if !RoleIn(u.role, CashierRoles) then (l, AccessDenied)
    else match form
      case None => (l, FormShown)
      case Some(f) =>
        var id := |l.bills|;
        var saved := SaveBill(DraftBill(f, Identifiers.BillNumber(billToken), u.id));
        var p := Payment(id, Identifiers.PaymentReference(payToken, 8), saved.total, Cash,
                         PaymentStatus.Success, None, Some(u.id), None);
        var paid := SaveBill(saved.(status := Paid));
        (Ledger(l.bills + [paid], l.payments + [p]), BillCreated(id))
  }

  // ---------------------------------------------------------------------------
  // Properties across the views
  // ---------------------------------------------------------------------------

  /** All three payment paths keep every payment attached to an existing bill. */
  lemma ViewsPreserveWellFormed(l: Ledger, u: User, id: BillId, submission: Option<PaymentForm>,
                                isPost: bool, reference: Option<string>, reply: GatewayReply,
                                billId: Option<BillId>, form: Option<BillForm>, t1: string, t2: string)
    requires WellFormed(l) && IsUuidHex(t1) && IsUuidHex(t2)
    ensures WellFormed(ProcessPayment(l, u, id, submission, t1).0)
    ensures WellFormed(VerifyGatewayPayment(l, u, isPost, reference, reply, billId, t1).0)
    ensures WellFormed(CreateBill(l, u, form, t1, t2).0)
  {
  }

  /**
   Create-and-pay agrees with the settlement rule: on a well-formed ledger the
   new bill's successful payments sum to exactly its total, so the rule would
   also classify it as paid.
   */
  lemma CreateBillAgreesWithSettlement(l: Ledger, u: User, form: Option<BillForm>, t1: string, t2: string)
    requires WellFormed(l) && IsUuidHex(t1) && IsUuidHex(t2)
    requires RoleIn(u.role, CashierRoles) && form.Some?
    ensures var r := CreateBill(l, u, form, t1, t2);
            var id := |l.bills|;
            && PaidTotal(r.0.payments, id) == r.0.bills[id].total
            && SettledStatus(BillStatus.Pending, r.0.bills[id].total, PaidTotal(r.0.payments, id)) == r.0.bills[id].status
  {
    var r := CreateBill(l, u, form, t1, t2);
    var id := |l.bills|;
    PaidTotalOfUnreferencedBill(l.payments, id);
    PaidTotalAppend(l.payments, r.0.payments[|l.payments|], id);
  }

  /** A refused or malformed request changes nothing, on every path. */
  lemma UnauthorizedCashierChangesNothing(l: Ledger, u: User, id: BillId, submission: Option<PaymentForm>,
                                          form: Option<BillForm>, t1: string, t2: string)
    requires IsUuidHex(t1) && IsUuidHex(t2)
    requires !RoleIn(u.role, CashierRoles)
    ensures ProcessPayment(l, u, id, submission, t1).0 == l
    ensures CreateBill(l, u, form, t1, t2).0 == l
  {
  }
}

=== FILE: collections.dfy ===
/**
 The two query shapes the views use on tables: `filter(...)`, which keeps
 the rows satisfying a condition in table order, and `order_by(key)`, which
 sorts rows by an integer key (dates, times and instants are integers here).
 */
module Collections {

  /**
   r is a subsequence of s: r can be obtained by deleting rows of s without
   reordering the rest. Matching each row of r at its first possible place
   in s is enough to decide this.
   */
  predicate Subsequence<T(==)>(r: seq<T>, s: seq<T>)
    decreases |s|
  {
    if r == [] then true
    else if s == [] then false
    else if r[0] == s[0] then Subsequence(r[1..], s[1..])
    else Subsequence(r, s[1..])
  }

  /** The rows of s that satisfy p, in their original order. */
  function Filter<T>(s: seq<T>, p: T -> bool): (r: seq<T>)
    ensures |r| <= |s|
    ensures forall i :: 0 <= i < |r| ==> r[i] in s && p(r[i])
    ensures forall i :: 0 <= i < |s| && p(s[i]) ==> s[i] in r
  {
    if s == [] then []
    else
      assert s == [s[0]] + s[1..];
      var rest := Filter(s[1..], p);
      if p(s[0]) then [s[0]] + rest else rest
  }

  /**
   Every row satisfying p is kept exactly as often as it occurs in s, and
   no other row is kept.
   */
  lemma {:induction false} FilterCounts<T(!new)>(s: seq<T>, p: T -> bool)
    ensures forall x :: multiset(Filter(s, p))[x] == if p(x) then multiset(s)[x] else 0
  {
    if s != [] {
      FilterCounts(s[1..], p);
      assert s == [s[0]] + s[1..];
      assert multiset(s) == multiset{s[0]} + multiset(s[1..]);
      if p(s[0]) {
        assert multiset(Filter(s, p)) == multiset{s[0]} + multiset(Filter(s[1..], p));
      }
    }
  }

  /** The kept rows appear in s in the same order. */
  lemma {:induction false} FilterIsSubsequence<T>(s: seq<T>, p: T -> bool)
    ensures Subsequence(Filter(s, p), s)
  {
    if s != [] {
      FilterIsSubsequence(s[1..], p);
      var rest := Filter(s[1..], p);
      if p(s[0]) {
        assert ([s[0]] + rest)[0] == s[0] && ([s[0]] + rest)[1..] == rest;
      } else if rest != [] {
        assert p(rest[0]);
      }
    }
  }

  /** Filtering a concatenation filters each part: the kept rows stay in table order. */
  lemma {:induction false} FilterAppend<T>(a: seq<T>, b: seq<T>, p: T -> bool)
    ensures Filter(a + b, p) == Filter(a, p) + Filter(b, p)
  {
    if a == [] {
      assert a + b == b;
    } else {
      assert (a + b)[0] == a[0];
      assert (a + b)[1..] == a[1..] + b;
      FilterAppend(a[1..], b, p);
      var head := if p(a[0]) then [a[0]] else [];
      assert Filter(a + b, p) == head + Filter(a[1..] + b, p);
      assert Filter(a, p) == head + Filter(a[1..], p);
      assert head + (Filter(a[1..], p) + Filter(b, p)) == (head + Filter(a[1..], p)) + Filter(b, p);
    }
  }

  /** Rows in non-decreasing order of their key. */
  predicate SortedBy<T>(s: seq<T>, key: T -> int) {
    forall i, j :: 0 <= i < j < |s| ==> key(s[i]) <= key(s[j])
  }

  /** Inserts x before the first row whose key is at least key(x). */
  function InsertBy<T>(x: T, s: seq<T>, key: T -> int): (r: seq<T>)
    requires SortedBy(s, key)
    ensures SortedBy(r, key)
    ensures multiset(r) == multiset(s) + multiset{x}
  {
    if s == [] then [x]
    else if key(x) <= key(s[0]) then [x] + s
    else
      var rest := InsertBy(x, s[1..], key);
      assert s == [s[0]] + s[1..];
      assert forall i :: 0 <= i < |rest| ==> key(s[0]) <= key(rest[i]) by {
        forall i | 0 <= i < |rest| ensures key(s[0]) <= key(rest[i]) {
          assert rest[i] in multiset(rest);
        }
      }
      [s[0]] + rest
  }

  /** `order_by(key)`: the same rows, sorted by key. */
  function SortBy<T>(s: seq<T>, key: T -> int): (r: seq<T>)
    ensures SortedBy(r, key)
    ensures multiset(r) == multiset(s)
  {
    if s == [] then []
    else
      assert s == [s[0]] + s[1..];
      InsertBy(s[0], SortBy(s[1..], key), key)
  }

  /** Inserting x puts it ahead of every row that shares its key. */
  lemma {:induction false} InsertByKeepsTiesBehind<T>(x: T, s: seq<T>, key: T -> int, k: int)
    requires SortedBy(s, key)
    ensures Filter(InsertBy(x, s, key), y => key(y) == k)
            == (if key(x) == k then [x] else []) + Filter(s, y => key(y) == k)
  {
    var p := y => key(y) == k;
    if s == [] {
    } else if key(x) <= key(s[0]) {
      assert ([x] + s)[0] == x && ([x] + s)[1..] == s;
    } else {
      var rest := InsertBy(x, s[1..], key);
      assert SortedBy(s[1..], key);
      InsertByKeepsTiesBehind(x, s[1..], key, k);
      assert ([s[0]] + rest)[0] == s[0] && ([s[0]] + rest)[1..] == rest;
      assert s == [s[0]] + s[1..];
      assert Filter(s, p) == (if p(s[0]) then [s[0]] else []) + Filter(s[1..], p);
    }
  }

  /**
   `SortBy` is stable: the rows sharing any one key keep their original
   relative order.
   */
  lemma {:induction false} SortByIsStable<T>(s: seq<T>, key: T -> int, k: int)
    ensures Filter(SortBy(s, key), y => key(y) == k) == Filter(s, y => key(y) == k)
  {
    if s != [] {
      var p := y => key(y) == k;
      SortByIsStable(s[1..], key, k);
      InsertByKeepsTiesBehind(s[0], SortBy(s[1..], key), key, k);
      assert s == [s[0]] + s[1..];
      assert Filter(s, p) == (if p(s[0]) then [s[0]] else []) + Filter(s[1..], p);
    }
  }

  /** Rows with the same multiset have the same members. */
  lemma SameMultisetSameMembers<T>(a: seq<T>, b: seq<T>)
    requires multiset(a) == multiset(b)
    ensures forall i :: 0 <= i < |a| ==> a[i] in b
    ensures forall i :: 0 <= i < |b| ==> b[i] in a
  {
    forall i | 0 <= i < |a| ensures a[i] in b {
      assert a[i] in multiset(a);
    }
    forall i | 0 <= i < |b| ensures b[i] in a {
      assert b[i] in multiset(b);
    }
  }
}

=== FILE: common.dfy ===
/**
 Shared vocabulary of the hospital model: optional values (Python's None),
 ASCII case mapping, substring and prefix tests, decimal rendering with
 zero padding, and upper-case hexadecimal tokens.
 */
module Common {

  /** An amount of money in minor currency units (hundredths). */
  type Money = int

  /** An instant, in integer seconds. */
  type Instant = int

  /** A value that may be absent, standing for a Python attribute that may be None. */
  datatype Option<+T> = None | Some(value: T) {
    function GetOr(default: T): T {
      match this
      case Some(v) => v
      case None => default
    }
  }

  /** Python truthiness of an optional string: None and "" are both false. */
  predicate Truthy(s: Option<string>) {
    s.Some? && s.value != ""
  }

  // ---------------------------------------------------------------------------
  // Case mapping (ASCII letters only)
  // ---------------------------------------------------------------------------

  function LowerChar(c: char): char {
    if 'A' <= c <= 'Z' then (c as int + 32) as char else c
  }

  function UpperChar(c: char): char {
    if 'a' <= c <= 'z' then (c as int - 32) as char else c
  }

  /** str.lower(), restricted to ASCII letters. */
  function Lower(s: string): (r: string)
    ensures |r| == |s|
    ensures forall i :: 0 <= i < |s| ==> r[i] == LowerChar(s[i])
  {
    if s == [] then [] else [LowerChar(s[0])] + Lower(s[1..])
  }

  /** str.upper(), restricted to ASCII letters. */
  function Upper(s: string): (r: string)
    ensures |r| == |s|
    ensures forall i :: 0 <= i < |s| ==> r[i] == UpperChar(s[i])
  {
    if s == [] then [] else [UpperChar(s[0])] + Upper(s[1..])
  }

  /** Lower-casing twice is lower-casing once. */
  lemma LowerIdempotent(s: string)
    ensures Lower(Lower(s)) == Lower(s)
  {
    assert forall i :: 0 <= i < |s| ==> Lower(Lower(s))[i] == Lower(s)[i];
  }

  /** Text without upper-case ASCII letters is its own lower-case form. */
  lemma LowerFixesLowerCase(s: string)
    requires forall i :: 0 <= i < |s| ==> !('A' <= s[i] <= 'Z')
    ensures Lower(s) == s
  {
    assert forall i :: 0 <= i < |s| ==> Lower(s)[i] == s[i];
  }

  /** Lower-casing concatenations lower-cases each part. */
  lemma LowerAppend(a: string, b: string)
    ensures Lower(a + b) == Lower(a) + Lower(b)
  {
    assert forall i :: 0 <= i < |a + b| ==> Lower(a + b)[i] == (Lower(a) + Lower(b))[i];
  }

  // ---------------------------------------------------------------------------
  // Prefix and substring tests
  // ---------------------------------------------------------------------------

  /** str.startswith(p). */
  predicate StartsWith(s: string, p: string) {
    |p| <= |s| && s[..|p|] == p
  }

  /** The specification of `w in s`: w occurs at some position of s. */
  ghost predicate Occurs(w: string, s: string) {
    exists i :: 0 <= i <= |s| && StartsWith(s[i..], w)
  }

  /** Python's `w in s` for strings, computed by scanning s left to right. */
  function Contains(s: string, w: string): bool
    decreases |s|
  {
    if StartsWith(s, w) then true
    else if s == [] then false
    else Contains(s[1..], w)
  }

  /** The scan finds w exactly when w occurs somewhere in s. */
  lemma {:induction false} ContainsIffOccurs(s: string, w: string)
    ensures Contains(s, w) <==> Occurs(w, s)
    decreases |s|
  {
    if StartsWith(s, w) {
      assert s[0..] == s;
      assert StartsWith(s[0..], w);
    } else if s == [] {
      assert forall i :: 0 <= i <= |s| ==> s[i..] == s;
    } else {
      ContainsIffOccurs(s[1..], w);
      if Occurs(w, s[1..]) {
        var i :| 0 <= i <= |s[1..]| && StartsWith(s[1..][i..], w);
        assert s[1..][i..] == s[i + 1..];
        assert StartsWith(s[i + 1..], w);
      }
      if Occurs(w, s) {
        var i :| 0 <= i <= |s| && StartsWith(s[i..], w);
        assert i != 0 by { assert s[0..] == s; }
        assert s[1..][i - 1..] == s[i..];
        assert StartsWith(s[1..][i - 1..], w);
      }
    }
  }

  /** Python's `any(w in s for w in words)`. */
  function ContainsAny(s: string, words: seq<string>): (b: bool)
    ensures b <==> exists k :: 0 <= k < |words| && Contains(s, words[k])
  {
    if words == [] then false
    else Contains(s, words[0]) || ContainsAny(s, words[1..])
  }

  // ---------------------------------------------------------------------------
  // Decimal rendering
  // ---------------------------------------------------------------------------

  predicate IsDigit(c: char) {
    '0' <= c <= '9'
  }

  predicate AllDigits(s: string) {
    forall i :: 0 <= i < |s| ==> IsDigit(s[i])
  }

  function DigitChar(d: nat): (c: char)
    requires d < 10
    ensures IsDigit(c)
  {
    ('0' as int + d) as char
  }

  function DigitValue(c: char): nat
    requires IsDigit(c)
  {
    c as int - '0' as int
  }

  /** The decimal digits of n, most significant first, without leading zeros. */
  function Decimal(n: nat): (r: string)
    ensures 1 <= |r|
    ensures AllDigits(r)
    ensures |r| > 1 ==> r[0] != '0'
  {
    if n < 10 then [DigitChar(n)] else Decimal(n / 10) + [DigitChar(n % 10)]
  }

  /** The number a string of decimal digits denotes. */
  function ParseDecimal(s: string): nat
    requires AllDigits(s)
  {
    if s == [] then 0
    else ParseDecimal(s[..|s| - 1]) * 10 + DigitValue(s[|s| - 1])
  }

  /** Reading back the rendering of n gives n. */
  lemma {:induction false} DecimalRoundTrip(n: nat)
    ensures ParseDecimal(Decimal(n)) == n
  {
    if n >= 10 {
      DecimalRoundTrip(n / 10);
      var s := Decimal(n);
      assert s[..|s| - 1] == Decimal(n / 10);
    }
  }

  function Pow10(k: nat): nat {
    if k == 0 then 1 else 10 * Pow10(k - 1)
  }

  lemma {:induction false} Pow10Monotone(j: nat, k: nat)
    requires j <= k
    ensures Pow10(j) <= Pow10(k)
    decreases k
  {
    if j < k {
      Pow10Monotone(j, k - 1);
    }
  }

  lemma {:induction false} Pow10Add(a: nat, b: nat)
    ensures Pow10(a + b) == Pow10(a) * Pow10(b)
  {
    if a > 0 {
      Pow10Add(a - 1, b);
      assert Pow10(a + b) == 10 * Pow10(a - 1 + b);
    }
  }

  /** The two powers of ten that bracket a signed 64-bit integer's magnitude. */
  lemma Pow10Of18And19()
    ensures Pow10(18) == 1_000_000_000_000_000_000
    ensures Pow10(19) == 10_000_000_000_000_000_000
  {
    assert Pow10(2) == 100;
    Pow10Add(2, 2);
    Pow10Add(4, 4);
    Pow10Add(8, 8);
    Pow10Add(16, 2);
    assert Pow10(19) == 10 * Pow10(18);
  }

  /** k digits denote less than 10^k. */
  lemma {:induction false} ParseDecimalBelowPow10(s: string)
    requires AllDigits(s)
    ensures ParseDecimal(s) < Pow10(|s|)
  {
    if s != [] {
      ParseDecimalBelowPow10(s[..|s| - 1]);
    }
  }

  /** k digits without a leading zero denote at least 10^(k-1). */
  lemma {:induction false} ParseDecimalAtLeastPow10(s: string)
    requires AllDigits(s) && |s| >= 1 && s[0] != '0'
    ensures ParseDecimal(s) >= Pow10(|s| - 1)
  {
    if |s| > 1 {
      ParseDecimalAtLeastPow10(s[..|s| - 1]);
    }
  }

  /** Dropping the leading zeros of a digit string keeps the number it denotes. */
  lemma {:induction false} ParseDropLeadingZeros(d: string)
    requires AllDigits(d)
    ensures AllDigits(DropLeadingZeros(d))
    ensures ParseDecimal(DropLeadingZeros(d)) == ParseDecimal(d)
  {
    if d != [] && d[0] == '0' {
      assert d == ['0'] + d[1..];
      ParseIgnoresLeadingZeros(['0'], d[1..]);
      ParseDropLeadingZeros(d[1..]);
    }
  }

  /** A digit string with at most k significant digits denotes less than 10^k. */
  lemma FewDigitsBelowPow10(d: string, k: nat)
    requires AllDigits(d) && |DropLeadingZeros(d)| <= k
    ensures ParseDecimal(d) < Pow10(k)
  {
    var r := DropLeadingZeros(d);
    ParseDropLeadingZeros(d);
    ParseDecimalBelowPow10(r);
    Pow10Monotone(|r|, k);
  }

  /** More than k digits, the first not a zero, denote at least 10^k. */
  lemma LeadingDigitAtLeastPow10(r: string, k: nat)
    requires AllDigits(r) && |r| > k && r[0] != '0'
    ensures ParseDecimal(r) >= Pow10(k)
  {
    ParseDecimalAtLeastPow10(r);
    Pow10Monotone(k, |r| - 1);
  }

  /** A digit string with more than k significant digits denotes at least 10^k. */
  lemma ManyDigitsAtLeastPow10(d: string, k: nat)
    requires AllDigits(d) && |DropLeadingZeros(d)| > k
    ensures ParseDecimal(d) >= Pow10(k)
  {
    var r := DropLeadingZeros(d);
    ParseDropLeadingZeros(d);
    LeadingDigitAtLeastPow10(r, k);
  }

  /** Format spec `0<width>d`: left-pads with '0' up to width characters. */
  function ZeroPad(s: string, width: nat): (r: string)
    ensures |r| == if |s| < width then width else |s|
    ensures r[|r| - |s|..] == s
    ensures forall i :: 0 <= i < |r| - |s| ==> r[i] == '0'
  {
    if |s| < width then seq(width - |s|, _ => '0') + s else s
  }

  /** Leading zeros do not change the number a digit string denotes. */
  lemma {:induction false} ParseIgnoresLeadingZeros(z: string, s: string)
    requires forall i :: 0 <= i < |z| ==> z[i] == '0'
    requires AllDigits(s)
    ensures AllDigits(z + s)
    ensures ParseDecimal(z + s) == ParseDecimal(s)
    decreases |s|
  {
    if s == [] {
      assert z + s == z;
      ZerosParseToZero(z);
    } else {
      var t := z + s;
      assert t[..|t| - 1] == z + s[..|s| - 1];
      ParseIgnoresLeadingZeros(z, s[..|s| - 1]);
    }
  }

  lemma {:induction false} ZerosParseToZero(z: string)
    requires forall i :: 0 <= i < |z| ==> z[i] == '0'
    ensures AllDigits(z)
    ensures ParseDecimal(z) == 0
  {
    if z != [] {
      ZerosParseToZero(z[..|z| - 1]);
    }
  }

  /** Text with its leading '0' characters removed: the significant digits of a numeral. */
  function DropLeadingZeros(s: string): (r: string)
    ensures |r| <= |s|
    ensures forall i :: 0 <= i < |r| ==> r[i] == s[|s| - |r| + i]
    ensures r == [] || r[0] != '0'
    ensures forall i :: 0 <= i < |s| - |r| ==> s[i] == '0'
  {
    if s != [] && s[0] == '0' then DropLeadingZeros(s[1..]) else s
  }

  /** Extra leading zeros are dropped along with the rest. */
  lemma {:induction false} DropLeadingZerosAbsorbs(z: string, w: string)
    requires forall i :: 0 <= i < |z| ==> z[i] == '0'
    ensures DropLeadingZeros(z + w) == DropLeadingZeros(w)
  {
    if z != [] {
      assert (z + w)[1..] == z[1..] + w;
      DropLeadingZerosAbsorbs(z[1..], w);
    } else {
      assert z + w == w;
    }
  }

  /** Python's f"{n:0<width>d}" for a non-negative n. */
  function PaddedDecimal(n: nat, width: nat): (r: string)
    ensures |r| >= width
    ensures AllDigits(r)
    ensures ParseDecimal(r) == n
  {
    var d := Decimal(n);
    var r := ZeroPad(d, width);
    assert r == r[..|r| - |d|] + d;
    ParseIgnoresLeadingZeros(r[..|r| - |d|], d);
    DecimalRoundTrip(n);
    r
  }

  // ---------------------------------------------------------------------------
  // Hexadecimal tokens (uuid4().hex and its upper-cased prefixes)
  // ---------------------------------------------------------------------------

  predicate IsLowerHexChar(c: char) {
    '0' <= c <= '9' || 'a' <= c <= 'f'
  }

  predicate IsUpperHexChar(c: char) {
    '0' <= c <= '9' || 'A' <= c <= 'F'
  }

  /** The 32 lower-case hexadecimal digits of uuid4().hex. */
  predicate IsUuidHex(s: string) {
    |s| == 32 && forall i :: 0 <= i < |s| ==> IsLowerHexChar(s[i])
  }

  /** Upper-casing a lower-case hex digit gives an upper-case one, and lower-casing undoes it. */
  lemma UpperHexChar(c: char)
    requires IsLowerHexChar(c)
    ensures IsUpperHexChar(UpperChar(c)) && LowerChar(UpperChar(c)) == c
  {
  }

  /** prefix + token[:n].upper(), the shape of every generated reference. */
  function TaggedToken(prefix: string, token: string, n: nat): (r: string)
    requires IsUuidHex(token) && n <= 32
    ensures |r| == |prefix| + n
    ensures StartsWith(r, prefix)
    ensures forall i :: |prefix| <= i < |r| ==> IsUpperHexChar(r[i])
    ensures Lower(r[|prefix|..]) == token[..n]
  {
    var t := Upper(token[..n]);
    forall i | 0 <= i < |t|
      ensures IsUpperHexChar(t[i]) && LowerChar(t[i]) == token[i]
    {
      UpperHexChar(token[i]);
    }
    assert Lower(t) == token[..n];
    var r := prefix + t;
    assert r[|prefix|..] == t;
    assert forall i :: |prefix| <= i < |r| ==> r[i] == t[i - |prefix|];
    r
  }
}

=== FILE: identifiers.dfy ===
/**
 Generated identifiers: patient ids assigned on first save, the ids of an
 auto-created doctor profile, and the bill numbers and payment references
 the cashier views mint. Randomness (`uuid4().hex`) is passed in as a token
 of 32 lower-case hexadecimal digits.
 */
module Identifiers {
  import opened Common

  /** s is `prefix` followed by exactly n upper-case hexadecimal digits. */
  predicate IsTagged(s: string, prefix: string, n: nat) {
    |s| == |prefix| + n && StartsWith(s, prefix)
    && forall i :: |prefix| <= i < |s| ==> IsUpperHexChar(s[i])
  }

  // ---------------------------------------------------------------------------
  // Patient.save (accounts/models.py)
  // ---------------------------------------------------------------------------

  /** The patient record of the accounts app. */
  datatype PatientRecord = PatientRecord(
    user: nat,
    patientId: string,
    bloodGroup: Option<string>,
    allergies: Option<string>,
    emergencyContact: Option<string>)

  /** Saving a patient fills in "PAT-" and six hex digits only when the id is blank. */
  function SavePatient(p: PatientRecord, token: string): (r: PatientRecord)
    requires IsUuidHex(token)
    ensures p.patientId != "" ==> r == p
    ensures p.patientId == "" ==> r == p.(patientId := r.patientId) && IsTagged(r.patientId, "PAT-", 6)
    ensures r.patientId != ""
  {
    if p.patientId == "" then p.(patientId := TaggedToken("PAT-", token, 6)) else p
  }

  /** Once a patient has an id, later saves never change it, whatever randomness they draw. */
  lemma SavePatientKeepsId(p: PatientRecord, t1: string, t2: string)
    requires IsUuidHex(t1) && IsUuidHex(t2)
    ensures SavePatient(SavePatient(p, t1), t2) == SavePatient(p, t1)
  {
  }

  // ---------------------------------------------------------------------------
  // Doctor profile created on first visit to the dashboard (doctors/views.py)
  // ---------------------------------------------------------------------------

  /** The fields a freshly created doctor profile receives. */
  datatype DoctorProfile = DoctorProfile(
    user: nat,
    doctorId: string,
    specialization: string,
    licenseNumber: string,
    qualification: string,
    consultationFee: int)   // minor currency units

  /** s is `prefix` followed by at least five decimal digits that denote n. */
  predicate IsPaddedIdFor(s: string, prefix: string, n: nat) {
    |s| >= |prefix| + 5 && StartsWith(s, prefix)
    && AllDigits(s[|prefix|..]) && ParseDecimal(s[|prefix|..]) == n
  }

  /** `f"{prefix}{id:05d}"`, the shape of the doctor id ("DOC") and licence number ("LIC"). */
  function PaddedId(prefix: string, userId: nat): (r: string)
    ensures IsPaddedIdFor(r, prefix, userId)
  {
    prefix + PaddedDecimal(userId, 5)
  }

  /** The profile `doctor_dashboard` creates for a doctor who has none. */
  function NewDoctorProfile(userId: nat): (d: DoctorProfile)
    ensures d.user == userId
    ensures IsPaddedIdFor(d.doctorId, "DOC", userId) && IsPaddedIdFor(d.licenseNumber, "LIC", userId)
    ensures d.specialization == "general" && d.qualification == "MBBS"
    ensures d.consultationFee == 50000
  {
    DoctorProfile(userId, PaddedId("DOC", userId), "general", PaddedId("LIC", userId), "MBBS", 50000)
  }

  /** Distinct users get distinct ids under the same prefix. */
  lemma PaddedIdsDistinct(prefix: string, a: nat, b: nat)
    requires a != b
    ensures PaddedId(prefix, a) != PaddedId(prefix, b)
  {
  }

  /** Ids below 100000 are padded to exactly five digits. */
  lemma SmallIdsHaveFiveDigits(prefix: string, userId: nat)
    requires userId < 100000
    ensures |PaddedId(prefix, userId)| == |prefix| + 5
  {
    DecimalLength(userId);
  }

  lemma {:induction false} DecimalLength(n: nat)
    requires n < 100000
    ensures |Decimal(n)| <= 5
  {
    if n >= 10 {
      DecimalLength(n / 10);
      if |Decimal(n / 10)| == 5 {
        DecimalAtLeast(n / 10, 4);
      }
    }
  }

  /** A rendering with more than k digits, k >= 1, stands for a number of at least 10^k. */
  lemma {:induction false} DecimalAtLeast(n: nat, k: nat)
    requires 0 < k < |Decimal(n)|
    ensures n >= Pow10(k)
  {
    assert n >= 10;
    assert Decimal(n) == Decimal(n / 10) + [DigitChar(n % 10)];
    if k > 1 {
      DecimalAtLeast(n / 10, k - 1);
    }
  }

  // ---------------------------------------------------------------------------
  // Cashier references (cashier/views.py)
  // ---------------------------------------------------------------------------

  /** `f"BILL{uuid4().hex[:8].upper()}"`. */
  function BillNumber(token: string): (r: string)
    requires IsUuidHex(token)
    ensures IsTagged(r, "BILL", 8)
    ensures Lower(r[4..]) == token[..8]
  {
    TaggedToken("BILL", token, 8)
  }

  /** `f"PAY{uuid4().hex[:n].upper()}"`: n is 10 for payments and 8 for create-and-pay. */
  function PaymentReference(token: string, n: nat): (r: string)
    requires IsUuidHex(token) && n <= 32
    ensures IsTagged(r, "PAY", n)
    ensures Lower(r[3..]) == token[..n]
  {
    TaggedToken("PAY", token, n)
  }
}

=== FILE: inpatient.dfy ===
/**
 Inpatient stays (inpatient/views.py): nights are charged as the ceiling of
 the stay in days, at least one; discharge happens once. Instants are
 integer seconds.
 */
module Inpatient {
  import opened Common

  const SecondsPerDay: int := 86400

  /** An admission, with its ward's nightly rate copied in. */
  datatype Admission = Admission(
    patient: nat,
    wardName: string,
    ratePerNight: Money,
    bedNumber: string,
    admittedAt: Instant,
    dischargedAt: Option<Instant>,
    isDischarged: bool,
    reason: string)

  /** ceil(a / d) for a positive divisor. */
  function CeilDiv(a: int, d: int): (q: int)
    requires d > 0
    ensures (q - 1) * d < a <= q * d
  {
    var q := (a + d - 1) / d;
    assert q * d + (a + d - 1) % d == a + d - 1;
    q
  }

  /** The nights `discharge_patient` bills for a stay of `seconds`: the ceiling of days, raised to 1. */
  function BilledNights(seconds: int): (n: nat)
    ensures n >= 1
    ensures seconds <= 0 ==> n == 1
    ensures seconds > 0 ==> (n - 1) * SecondsPerDay < seconds <= n * SecondsPerDay
  {
    var days := CeilDiv(seconds, SecondsPerDay);
    if days < 1 then 1 else days
  }

  /** A stay of exactly k whole days bills k nights. */
  lemma WholeDaysBillExactly(k: nat)
    requires k >= 1
    ensures BilledNights(k * SecondsPerDay) == k
  {
    var n := BilledNights(k * SecondsPerDay);
    assert (n - 1) * SecondsPerDay < k * SecondsPerDay <= n * SecondsPerDay;
  }

  /** One second more than k whole days bills k + 1 nights. */
  lemma ExtraSecondBillsAnotherNight(k: nat)
    ensures BilledNights(k * SecondsPerDay + 1) == k + 1
  {
    var n := BilledNights(k * SecondsPerDay + 1);
    assert (n - 1) * SecondsPerDay < k * SecondsPerDay + 1 <= n * SecondsPerDay;
  }

  /** Longer stays never bill fewer nights. */
  lemma BilledNightsMonotone(s1: int, s2: int)
    requires s1 <= s2
    ensures BilledNights(s1) <= BilledNights(s2)
  {
    var n1 := BilledNights(s1);
    var n2 := BilledNights(s2);
    if s1 > 0 {
      assert (n1 - 1) * SecondsPerDay < s1 <= s2 <= n2 * SecondsPerDay;
    }
  }

  datatype DischargeOutcome =
    | NotPosted                               // nothing happens
    | AdmissionNotFound                       // HTTP 404: no such admission, or already discharged
    | Discharged(nights: nat, cost: Money)

  /** `discharge_patient` at instant `now`. */
  function Discharge(adms: seq<Admission>, id: nat, isPost: bool, now: Instant): (r: (seq<Admission>, DischargeOutcome))
    ensures !r.1.Discharged? ==> r.0 == adms
    ensures r.1.Discharged? <==> isPost && id < |adms| && !adms[id].isDischarged
    ensures !isPost ==> r.1 == NotPosted
    ensures r.1.Discharged? ==>
              var a := adms[id];
              && r.0 == adms[id := a.(isDischarged := true, dischargedAt := Some(now))]
              && r.1.nights == BilledNights(now - a.admittedAt)
              && r.1.cost == r.1.nights * a.ratePerNight
  {
    if !isPost then (adms, NotPosted)
    else if id >= |adms| || adms[id].isDischarged then (adms, AdmissionNotFound)
    else
      var a := adms[id];
      var days := CeilDiv(now - a.admittedAt, SecondsPerDay);
      var nights := if days < 1 then 1 else days;
      (adms[id := a.(isDischarged := true, dischargedAt := Some(now))], Discharged(nights, nights * a.ratePerNight))
  }

  /** Discharge is one-shot: discharging the same admission again finds nothing and changes nothing. */
  lemma DischargeIsOneShot(adms: seq<Admission>, id: nat, now1: Instant, now2: Instant)
    requires Discharge(adms, id, true, now1).1.Discharged?
    ensures var after := Discharge(adms, id, true, now1).0;
            Discharge(after, id, true, now2) == (after, AdmissionNotFound)
  {
  }

  /** A row of the ward dashboard: an active admission with its running stay and bill. */
  datatype WardRow = WardRow(admission: nat, daysSpent: nat, runningBill: Money)

  function Max(a: int, b: int): int {
    if a >= b then a else b
  }

  /** The ids of admissions, from index `from` on, that are not discharged, in ascending order. */
  function ActiveFrom(adms: seq<Admission>, from: nat): (ids: seq<nat>)
    requires from <= |adms|
    ensures forall i :: i in ids <==> from <= i < |adms| && !adms[i].isDischarged
    ensures forall a, b :: 0 <= a < b < |ids| ==> ids[a] < ids[b]
    decreases |adms| - from
  {
    if from == |adms| then []
    else if adms[from].isDischarged then ActiveFrom(adms, from + 1)
    else
      var rest := ActiveFrom(adms, from + 1);
      assert forall b :: 0 <= b < |rest| ==> from < rest[b] by {
        forall b | 0 <= b < |rest| ensures from < rest[b] {
          assert rest[b] in rest;
        }
      }
      [from] + rest
  }

  /**
   `max(ceil(seconds / 86400), 1)` as the dashboard writes it: the same
   count of nights that discharging at `now` would bill.
   */
  function DaysSpent(a: Admission, now: Instant): (d: int)
    ensures d >= 1 && d == BilledNights(now - a.admittedAt)
  {
    Max(CeilDiv(now - a.admittedAt, SecondsPerDay), 1)
  }

  /**
   `ward_dashboard`: every admission not yet discharged, once each and in
   ascending id order, with its running bill.
   */
  function WardDashboard(adms: seq<Admission>, now: Instant): (rows: seq<WardRow>)
    ensures forall k :: 0 <= k < |rows| ==> rows[k].admission < |adms| && !adms[rows[k].admission].isDischarged
    ensures forall k, l :: 0 <= k < l < |rows| ==> rows[k].admission < rows[l].admission
    ensures forall i :: 0 <= i < |adms| && !adms[i].isDischarged ==>
              exists k :: 0 <= k < |rows| && rows[k].admission == i
    ensures forall k :: 0 <= k < |rows| ==>
              var a := adms[rows[k].admission];
              rows[k].daysSpent >= 1 && rows[k].runningBill == rows[k].daysSpent * a.ratePerNight
  {
    var ids := ActiveFrom(adms, 0);
    ActiveIdsInRange(adms, ids);
    var rows := RowsOf(adms, ids, now);
    ActiveRowsFacts(adms, now, ids, rows);
    rows
  }

  /** Every listed active id indexes an admission that is not discharged. */
  lemma ActiveIdsInRange(adms: seq<Admission>, ids: seq<nat>)
    requires ids == ActiveFrom(adms, 0)
    ensures forall k :: 0 <= k < |ids| ==> ids[k] < |adms| && !adms[ids[k]].isDischarged
  {
    forall k | 0 <= k < |ids| ensures ids[k] < |adms| && !adms[ids[k]].isDischarged {
      assert ids[k] in ids;
    }
  }

  /** The rows built from the active ids have the dashboard's properties. */
  lemma ActiveRowsFacts(adms: seq<Admission>, now: Instant, ids: seq<nat>, rows: seq<WardRow>)
    requires ids == ActiveFrom(adms, 0)
    requires forall k :: 0 <= k < |ids| ==> ids[k] < |adms| && !adms[ids[k]].isDischarged
    requires rows == RowsOf(adms, ids, now)
    ensures forall k :: 0 <= k < |rows| ==> rows[k].admission < |adms| && !adms[rows[k].admission].isDischarged
    ensures forall k, l :: 0 <= k < l < |rows| ==> rows[k].admission < rows[l].admission
    ensures forall i :: 0 <= i < |adms| && !adms[i].isDischarged ==>
              exists k :: 0 <= k < |rows| && rows[k].admission == i
    ensures forall k :: 0 <= k < |rows| ==>
              var a := adms[rows[k].admission];
              rows[k].daysSpent >= 1 && rows[k].runningBill == rows[k].daysSpent * a.ratePerNight
  {
    assert forall k :: 0 <= k < |rows| ==> rows[k].admission == ids[k];
    forall i | 0 <= i < |adms| && !adms[i].isDischarged
      ensures exists k :: 0 <= k < |rows| && rows[k].admission == i
    {
      assert rows[IndexOf(ids, i)].admission == i;
    }
  }

  /** The dashboard row of admission `id`: its running stay and what it costs so far. */
  function RowOf(adms: seq<Admission>, id: nat, now: Instant): (row: WardRow)
    requires id < |adms|
    ensures row.admission == id && row.daysSpent >= 1
    ensures row.runningBill == row.daysSpent * adms[id].ratePerNight
  {
    var a := adms[id];
    WardRow(id, DaysSpent(a, now), DaysSpent(a, now) * a.ratePerNight)
  }

  /** One row per listed admission, in the order listed. */
  function RowsOf(adms: seq<Admission>, ids: seq<nat>, now: Instant): (rows: seq<WardRow>)
    requires forall k :: 0 <= k < |ids| ==> ids[k] < |adms|
    ensures |rows| == |ids|
    ensures forall k :: 0 <= k < |rows| ==> rows[k] == RowOf(adms, ids[k], now)
  {
    if ids == [] then [] else [RowOf(adms, ids[0], now)] + RowsOf(adms, ids[1..], now)
  }

  /** The position of an element known to be present. */
  function IndexOf(ids: seq<nat>, i: nat): (k: nat)
    requires i in ids
    ensures k < |ids| && ids[k] == i
  {
    if ids[0] == i then 0 else 1 + IndexOf(ids[1..], i)
  }

  /** The dashboard's running bill is exactly what discharging at the same instant would charge. */
  lemma RunningBillMatchesDischarge(adms: seq<Admission>, now: Instant, k: nat)
    requires k < |WardDashboard(adms, now)|
    ensures var row := WardDashboard(adms, now)[k];
            Discharge(adms, row.admission, true, now).1 == Discharged(row.daysSpent, row.runningBill)
  {
    var row := WardDashboard(adms, now)[k];
    var a := adms[row.admission];
    assert row.daysSpent == DaysSpent(a, now);
  }
}

=== FILE: labs.dfy ===
/**
 Laboratory requests (labs/models.py) and the lab technician's two views
 (labs/views.py): the queue of paid requests and the submission of results.
 Uploaded files are represented by their stored names.
 */
module Labs {
  import opened Common
  import opened Access
  import opened Collections

  /** A lab request; `status` is free text (`pending`, `paid`, `completed`, ...). */
  datatype LabRequest = LabRequest(
    patient: Option<nat>,
    doctor: Option<UserId>,
    testName: string,
    findings: Option<string>,
    attachment: Option<string>,
    status: string,
    isCompleted: bool,
    createdAt: Instant)

  /** A new request: `pending`, not completed, with no findings or attachment. */
  function NewLabRequest(patient: Option<nat>, doctor: Option<UserId>, testName: string, now: Instant): (r: LabRequest)
    ensures r.status == "pending" && !r.isCompleted
    ensures r.findings.None? && r.attachment.None?
    ensures r !in LabQueue([r])
  {
    LabRequest(patient, doctor, testName, None, None, "pending", false, now)
  }

  /** The submitted form: the `findings` field (None when absent) and the uploaded file, if any. */
  datatype ResultForm = ResultForm(findings: Option<string>, upload: Option<string>)

  datatype LabOutcome =
    | LoginRedirect      // anonymous: sent to the login page
    | Forbidden          // signed in but not a lab technician: HTTP 403
    | NotFound           // HTTP 404
    | Submitted
    | NotPosted          // a GET: straight back to the dashboard

  /**
   The body of `submit_lab_result`. The POST test comes first, so a GET never
   looks the request up.
   */
  function SubmitLabResult(reqs: seq<LabRequest>, id: nat, post: Option<ResultForm>): (r: (seq<LabRequest>, LabOutcome))
    ensures r.1 != Submitted ==> r.0 == reqs
    ensures post.None? ==> r.1 == NotPosted
    ensures r.1 == Submitted <==> post.Some? && id < |reqs|
    ensures r.1 == Submitted ==>
              var f := post.value;
              && |r.0| == |reqs|
              && r.0[id].status == "completed"
              && r.0[id].findings == f.findings
              && r.0[id].attachment == (if f.upload.Some? then f.upload else reqs[id].attachment)
              && r.0[id].isCompleted == reqs[id].isCompleted
              && r.0[id].(findings := reqs[id].findings, attachment := reqs[id].attachment, status := reqs[id].status)
                 == reqs[id]
              && forall j :: 0 <= j < |reqs| && j != id ==> r.0[j] == reqs[j]
  {
    match post
    case None => (reqs, NotPosted)
    case Some(f) =>
      if id >= |reqs| then (reqs, NotFound)
      else
        var t := reqs[id].(findings := f.findings);
        var t' := if f.upload.Some? then t.(attachment := f.upload) else t;
        (reqs[id := t'.(status := "completed")], Submitted)
  }

  /** The view as routed: `login_required`, then `lab_tech_only`, then the body. */
  function SubmitLabResultView(reqs: seq<LabRequest>, p: Principal, id: nat, post: Option<ResultForm>)
    : (r: (seq<LabRequest>, LabOutcome))
    ensures p.Anonymous? ==> r == (reqs, LoginRedirect)
    ensures p.SignedIn? && p.user.role != Some("lab_tech") ==> r == (reqs, Forbidden)
    ensures p.SignedIn? && p.user.role == Some("lab_tech") ==> r == SubmitLabResult(reqs, id, post)
  {
    var inner := (q: ()) => LabTechOnly(p, (q2: ()) => SubmitLabResult(reqs, id, post), ());
    match LoginRequired(p, inner, ())
    case Redirected(_) => (reqs, LoginRedirect)
    case PermissionDenied => (reqs, Forbidden)
    case Ran(g) =>
      match g
      case Ran(r) => r
      case _ => (reqs, Forbidden)
  }

  /** Submitting the same form twice leaves the same records as submitting it once. */
  lemma SubmitLabResultIdempotent(reqs: seq<LabRequest>, id: nat, f: ResultForm)
    requires id < |reqs|
    ensures var once := SubmitLabResult(reqs, id, Some(f)).0;
            SubmitLabResult(once, id, Some(f)).0 == once
  {
  }

  /** Without an upload the earlier attachment survives a resubmission. */
  lemma AttachmentKeptWithoutUpload(reqs: seq<LabRequest>, id: nat, findings: Option<string>)
    requires id < |reqs|
    ensures SubmitLabResult(reqs, id, Some(ResultForm(findings, None))).0[id].attachment == reqs[id].attachment
  {
  }

  /** `lab_dashboard`'s queue: requests with status `paid`, oldest first. */
  function LabQueue(reqs: seq<LabRequest>): (q: seq<LabRequest>)
    ensures SortedBy(q, (t: LabRequest) => t.createdAt)
    ensures forall i :: 0 <= i < |q| ==> q[i] in reqs && q[i].status == "paid"
    ensures forall i :: 0 <= i < |reqs| && reqs[i].status == "paid" ==> reqs[i] in q
    ensures forall t :: multiset(q)[t] == if t.status == "paid" then multiset(reqs)[t] else 0
  {
    var paid := Filter(reqs, (t: LabRequest) => t.status == "paid");
    var q := SortBy(paid, (t: LabRequest) => t.createdAt);
    SameMultisetSameMembers(q, paid);
    FilterCounts(reqs, (t: LabRequest) => t.status == "paid");
    q
  }

  /** A submitted request is no longer in the queue. */
  lemma SubmittedLeavesQueue(reqs: seq<LabRequest>, id: nat, f: ResultForm)
    requires id < |reqs|
    ensures var after := SubmitLabResult(reqs, id, Some(f)).0;
            after[id] !in LabQueue(after)
  {
  }
}

=== FILE: pharmacy.dfy ===
/**
 Dispensing a prescription (`update_prescription_status` in
 pharmacy/views.py): one all-or-nothing step that either deducts stock, marks
 the prescription dispensed and appends one audit-log entry, or changes
 nothing at all.
 */
module Pharmacy {
  import opened Common
  import opened Access
  import opened Stock

  datatype PrescriptionStatus = Pending | Paid | Dispensed

  /**
   A prescription. `patientLabel` is how the patient prints; `quantity` is
   None when the prescription carries no quantity of its own.
   */
  datatype Prescription = Prescription(
    patientLabel: string,
    doctor: Option<UserId>,
    medicationName: string,
    dosage: string,
    frequency: string,
    duration: string,
    price: int,   // minor currency units
    status: PrescriptionStatus,
    quantity: Option<nat>)

  /**
   One row of the dispensing audit log. No `DispensingLog` model is defined,
   so the fields are those the dispensing view passes when it creates a row.
   */
  datatype LogEntry = LogEntry(
    pharmacist: UserId,
    patientName: string,
    medicationName: string,
    quantityDispensed: nat,
    notes: string)

  /** The inventory (in its default order, by name), the prescriptions, and the audit log. */
  datatype PharmacyState = PharmacyState(
    medicines: seq<Medicine>,
    prescriptions: seq<Prescription>,
    log: seq<LogEntry>)

  datatype DispenseOutcome =
    | Unauthorized            // redirect to the dashboard
    | NotPosted               // nothing attempted
    | PrescriptionNotFound    // HTTP 404
    | ExpiredBlocked          // "DISPENSING BLOCKED"
    | InsufficientStock(available: nat)
    | DispensedTracked
    | DispensedUntracked

  const PharmacyRoles: seq<string> := ["pharmacist", "manager"]
  const UntrackedNote: string := "DISPENSED UNTRACKED ITEM"

  /** `getattr(prescription, 'quantity', 1)`. */
  function QuantityToDeduct(rx: Prescription): nat {
    rx.quantity.GetOr(1)
  }

  /** `name__iexact`: the names agree ignoring letter case. */
  predicate SameName(a: string, b: string) {
    Lower(a) == Lower(b)
  }

  /** `.filter(name__iexact=name).first()`: the index of the first medicine with that name. */
  function FindMedicine(meds: seq<Medicine>, name: string): (r: Option<nat>)
    ensures r.Some? ==> r.value < |meds| && SameName(meds[r.value].name, name)
    ensures r.Some? ==> forall j :: 0 <= j < r.value ==> !SameName(meds[j].name, name)
    ensures r.None? ==> forall j :: 0 <= j < |meds| ==> !SameName(meds[j].name, name)
    decreases |meds|
  {
    if meds == [] then None
    else if SameName(meds[0].name, name) then Some(0)
    else match FindMedicine(meds[1..], name)
      case None => None
      case Some(k) => Some(k + 1)
  }

  /** The text in front of the id in a dispensing log note. */
  const NoteLabel := "Prescription ID: "

  /** The log note for prescription `id`: the label, then the id in decimal. */
  function PrescriptionNote(id: nat): string {
    NoteLabel + Decimal(id)
  }

  /** A log note names its prescription: after the label, the digits read back as the id. */
  lemma PrescriptionNoteNamesId(id: nat)
    ensures var n := PrescriptionNote(id);
            |n| > |NoteLabel| && n[..|NoteLabel|] == NoteLabel
            && AllDigits(n[|NoteLabel|..]) && ParseDecimal(n[|NoteLabel|..]) == id
  {
    DecimalRoundTrip(id);
    var n := PrescriptionNote(id);
    assert n[|NoteLabel|..] == Decimal(id);
  }

  /** Different prescriptions leave different log notes. */
  lemma PrescriptionNoteInjective(a: nat, b: nat)
    requires a != b
    ensures PrescriptionNote(a) != PrescriptionNote(b)
  {
    PrescriptionNoteNamesId(a);
    PrescriptionNoteNamesId(b);
  }

  /** The dispense step, for a user posting (or not) a request about prescription `id` on day `today`. */
  function Dispense(s: PharmacyState, u: User, isPost: bool, id: nat, today: Day): (r: (PharmacyState, DispenseOutcome))
    ensures !(r.1.DispensedTracked? || r.1.DispensedUntracked?) ==> r.0 == s
    ensures !RoleIn(u.role, PharmacyRoles) ==> r.1 == Unauthorized
    ensures RoleIn(u.role, PharmacyRoles) && !isPost ==> r.1 == NotPosted
    ensures RoleIn(u.role, PharmacyRoles) && isPost && id >= |s.prescriptions| ==> r.1 == PrescriptionNotFound
    ensures r.1.DispensedTracked? || r.1.DispensedUntracked? || r.1.ExpiredBlocked? || r.1.InsufficientStock? ==>
              RoleIn(u.role, PharmacyRoles) && isPost && id < |s.prescriptions|
    ensures RoleIn(u.role, PharmacyRoles) && isPost && id < |s.prescriptions| ==>
              var rx := s.prescriptions[id];
              var q := QuantityToDeduct(rx);
              match FindMedicine(s.medicines, rx.medicationName)
              case None =>
                && r.1 == DispensedUntracked
                && r.0.medicines == s.medicines
                && r.0.prescriptions == s.prescriptions[id := rx.(status := Dispensed)]
                && r.0.log == s.log + [LogEntry(u.id, rx.patientLabel, rx.medicationName, q, UntrackedNote)]
              case Some(k) =>
                var m := s.medicines[k];
                && (IsExpired(m, today) ==> r.1 == ExpiredBlocked)
                && (!IsExpired(m, today) && m.quantity < q ==> r.1 == InsufficientStock(m.quantity))
                && (!IsExpired(m, today) && m.quantity >= q ==>
                      && r.1 == DispensedTracked
                      && r.0.medicines == s.medicines[k := m.(quantity := m.quantity - q)]
                      && r.0.prescriptions == s.prescriptions[id := rx.(status := Dispensed)]
                      && r.0.log == s.log + [LogEntry(u.id, rx.patientLabel, m.name, q, PrescriptionNote(id))])
  {
    if !RoleIn(u.role, PharmacyRoles) then (s, Unauthorized)
    else if !isPost then (s, NotPosted)
    else if id >= |s.prescriptions| then (s, PrescriptionNotFound)
    else
      var rx := s.prescriptions[id];
      var q := QuantityToDeduct(rx);
      var dispensed := s.prescriptions[id := rx.(status := Dispensed)];
      match FindMedicine(s.medicines, rx.medicationName)
      case None =>
        var entry := LogEntry(u.id, rx.patientLabel, rx.medicationName, q, UntrackedNote);
        (PharmacyState(s.medicines, dispensed, s.log + [entry]), DispensedUntracked)
      case Some(k) =>
        var m := s.medicines[k];
        if m.expiry.Some? && m.expiry.value <= today then (s, ExpiredBlocked)
        else if m.quantity >= q then
          var entry := LogEntry(u.id, rx.patientLabel, m.name, q, PrescriptionNote(id));
          (PharmacyState(s.medicines[k := m.(quantity := m.quantity - q)], dispensed, s.log + [entry]),
           DispensedTracked)
        else (s, InsufficientStock(m.quantity))
  }

  // ---------------------------------------------------------------------------
  // Stock conservation
  // ---------------------------------------------------------------------------

  /** Units on the shelves, over the whole inventory. */
  function TotalStock(meds: seq<Medicine>): nat {
    if meds == [] then 0 else meds[0].quantity + TotalStock(meds[1..])
  }

  /** Units dispensed according to the audit log. */
  function TotalLogged(log: seq<LogEntry>): nat {
    if log == [] then 0 else TotalLogged(log[..|log| - 1]) + log[|log| - 1].quantityDispensed
  }

  /** Replacing one medicine's quantity changes the total by the difference. */
  lemma {:induction false} TotalStockUpdate(meds: seq<Medicine>, k: nat, v: nat)
    requires k < |meds|
    ensures TotalStock(meds[k := meds[k].(quantity := v)]) + meds[k].quantity == TotalStock(meds) + v
  {
    if k > 0 {
      var upd := meds[k := meds[k].(quantity := v)];
      assert upd[1..] == meds[1..][k - 1 := meds[k].(quantity := v)];
      TotalStockUpdate(meds[1..], k - 1, v);
    }
  }

  /**
   A tracked dispense moves exactly the logged units off the shelves: shelf
   stock plus logged units is the same before and after.
   */
  lemma TrackedDispenseConservesUnits(s: PharmacyState, u: User, id: nat, today: Day)
    requires Dispense(s, u, true, id, today).1 == DispensedTracked
    ensures var s' := Dispense(s, u, true, id, today).0;
            TotalStock(s'.medicines) + TotalLogged(s'.log) == TotalStock(s.medicines) + TotalLogged(s.log)
  {
    var rx := s.prescriptions[id];
    var k := FindMedicine(s.medicines, rx.medicationName).value;
    var m := s.medicines[k];
    TotalStockUpdate(s.medicines, k, m.quantity - QuantityToDeduct(rx));
    var s' := Dispense(s, u, true, id, today).0;
    assert s'.log[..|s'.log| - 1] == s.log;
  }

  /** An expired match blocks dispensing even when there is plenty of stock. */
  lemma ExpiredBlocksWhateverTheStock(s: PharmacyState, u: User, id: nat, today: Day)
    requires RoleIn(u.role, PharmacyRoles) && id < |s.prescriptions|
    requires var k := FindMedicine(s.medicines, s.prescriptions[id].medicationName);
             k.Some? && IsExpired(s.medicines[k.value], today)
    ensures Dispense(s, u, true, id, today) == (s, ExpiredBlocked)
  {
  }

  /**
   The step does not look at the prescription's status: an already dispensed
   prescription is dispensed again, and stock is deducted a second time.
   */
  lemma RedispenseDeductsAgain(s: PharmacyState, u: User, id: nat, today: Day)
    requires Dispense(s, u, true, id, today).1 == DispensedTracked
    ensures var s1 := Dispense(s, u, true, id, today).0;
            var k := FindMedicine(s.medicines, s.prescriptions[id].medicationName).value;
            var q := QuantityToDeduct(s.prescriptions[id]);
            s1.prescriptions[id].status == Dispensed &&
            (s1.medicines[k].quantity >= q ==>
               Dispense(s1, u, true, id, today).1 == DispensedTracked &&
               Dispense(s1, u, true, id, today).0.medicines[k].quantity == s.medicines[k].quantity - 2 * q)
  {
    var s1 := Dispense(s, u, true, id, today).0;
    var rx := s.prescriptions[id];
    var k := FindMedicine(s.medicines, rx.medicationName).value;
    assert s1.prescriptions[id].medicationName == rx.medicationName;
    assert s1.prescriptions[id].quantity == rx.quantity;
    assert forall j :: 0 <= j < |s1.medicines| ==> s1.medicines[j].name == s.medicines[j].name;
    assert FindMedicine(s1.medicines, rx.medicationName) == Some(k) by {
      FindMedicineDependsOnNames(s.medicines, s1.medicines, rx.medicationName);
    }
  }

  /** The lookup only reads names. */
  lemma {:induction false} FindMedicineDependsOnNames(a: seq<Medicine>, b: seq<Medicine>, name: string)
    requires |a| == |b|
    requires forall j :: 0 <= j < |a| ==> a[j].name == b[j].name
    ensures FindMedicine(a, name) == FindMedicine(b, name)
    decreases |a|
  {
    if a != [] {
      FindMedicineDependsOnNames(a[1..], b[1..], name);
    }
  }
}

=== FILE: stock.dfy ===
/**
 Stock records and their classification: low stock for medicines and lab
 reagents (accounts/models.py), the LOW/OK column of the inventory report
 (pharmacy/views.py), and the expired / expiring-soon / low-stock alert lists
 (pharmacy/utils.py). Dates are integer day numbers.
 */
module Stock {
  import opened Common
  import opened Collections

  type Day = int

  /**
   A medicine in the inventory. `expiry` is None when no expiry date is
   recorded; such a medicine is never expired nor expiring soon.
   */
  datatype Medicine = Medicine(
    name: string,
    category: string,
    quantity: nat,
    reorderLevel: nat,
    pricePerUnit: int,   // minor currency units
    expiry: Option<Day>)

  /** A laboratory reagent. */
  datatype Reagent = Reagent(name: string, stockQuantity: nat, minThreshold: nat)

  /** `Medicine.is_low_stock`: at or below the reorder level. */
  predicate IsLowStock(m: Medicine) {
    m.quantity <= m.reorderLevel
  }

  /** `Reagent.is_low_stock`: at or below the minimum threshold. */
  predicate ReagentIsLowStock(r: Reagent) {
    r.stockQuantity <= r.minThreshold
  }

  /** Reaching the level exactly counts as low; one unit above does not. */
  lemma LowStockBoundary(m: Medicine, r: Reagent)
    ensures m.quantity == m.reorderLevel ==> IsLowStock(m)
    ensures m.quantity == m.reorderLevel + 1 ==> !IsLowStock(m)
    ensures r.stockQuantity == r.minThreshold ==> ReagentIsLowStock(r)
    ensures r.stockQuantity == r.minThreshold + 1 ==> !ReagentIsLowStock(r)
  {
  }

  /** The Status column of the inventory report. */
  function ReportStatus(m: Medicine): (s: string)
    ensures s == "LOW" || s == "OK"
    ensures s == "LOW" <==> IsLowStock(m)
  {
    if m.quantity <= m.reorderLevel then "LOW" else "OK"
  }

  // ---------------------------------------------------------------------------
  // Expiry
  // ---------------------------------------------------------------------------

  /** Days ahead that count as "expiring soon". */
  const ExpiryWindowDays: int := 30

  /** Expired: an expiry date on or before today. */
  predicate IsExpired(m: Medicine, today: Day) {
    m.expiry.Some? && m.expiry.value <= today
  }

  /** Expiring soon: an expiry date after today and at most 30 days ahead. */
  predicate IsExpiringSoon(m: Medicine, today: Day) {
    m.expiry.Some? && today < m.expiry.value <= today + ExpiryWindowDays
  }

  /** The three alert lists, each in inventory order. */
  datatype Alerts = Alerts(expired: seq<Medicine>, expiringSoon: seq<Medicine>, lowStock: seq<Medicine>)

  /** `get_inventory_alert_data`. */
  function InventoryAlerts(meds: seq<Medicine>, today: Day): (a: Alerts)
    ensures forall i :: 0 <= i < |a.expired| ==> a.expired[i] in meds && IsExpired(a.expired[i], today)
    ensures forall i :: 0 <= i < |meds| && IsExpired(meds[i], today) ==> meds[i] in a.expired
    ensures forall i :: 0 <= i < |a.expiringSoon| ==>
              a.expiringSoon[i] in meds && IsExpiringSoon(a.expiringSoon[i], today)
    ensures forall i :: 0 <= i < |meds| && IsExpiringSoon(meds[i], today) ==> meds[i] in a.expiringSoon
    ensures forall i :: 0 <= i < |a.lowStock| ==> a.lowStock[i] in meds && IsLowStock(a.lowStock[i])
    ensures forall i :: 0 <= i < |meds| && IsLowStock(meds[i]) ==> meds[i] in a.lowStock
    ensures Subsequence(a.expired, meds) && Subsequence(a.expiringSoon, meds) && Subsequence(a.lowStock, meds)
    ensures forall m :: multiset(a.expired)[m] == if IsExpired(m, today) then multiset(meds)[m] else 0
    ensures forall m :: multiset(a.expiringSoon)[m] == if IsExpiringSoon(m, today) then multiset(meds)[m] else 0
    ensures forall m :: multiset(a.lowStock)[m] == if IsLowStock(m) then multiset(meds)[m] else 0
  {
    var expired := (m: Medicine) => m.expiry.Some? && m.expiry.value <= today;
    var soon := (m: Medicine) => m.expiry.Some? && m.expiry.value > today && m.expiry.value <= today + ExpiryWindowDays;
    var low := (m: Medicine) => m.quantity <= m.reorderLevel;
    FilterCounts(meds, expired);
    FilterCounts(meds, soon);
    FilterCounts(meds, low);
    FilterIsSubsequence(meds, expired);
    FilterIsSubsequence(meds, soon);
    FilterIsSubsequence(meds, low);
    Alerts(Filter(meds, expired), Filter(meds, soon), Filter(meds, low))
  }

  /** No medicine is listed both as expired and as expiring soon. */
  lemma ExpiredAndExpiringSoonDisjoint(meds: seq<Medicine>, today: Day)
    ensures var a := InventoryAlerts(meds, today);
            forall i, j :: 0 <= i < |a.expired| && 0 <= j < |a.expiringSoon| ==> a.expired[i] != a.expiringSoon[j]
  {
  }

  /** The window's edges: day today+30 is expiring soon, day today+31 is in neither expiry list. */
  lemma ExpiryWindowEdges(m: Medicine, today: Day)
    ensures m.expiry == Some(today + 30) ==> IsExpiringSoon(m, today) && !IsExpired(m, today)
    ensures m.expiry == Some(today + 31) ==> !IsExpiringSoon(m, today) && !IsExpired(m, today)
    ensures m.expiry == Some(today) ==> IsExpired(m, today) && !IsExpiringSoon(m, today)
    ensures m.expiry.None? ==> !IsExpired(m, today) && !IsExpiringSoon(m, today)
  {
  }

  /** Low stock does not depend on expiry: changing the date never moves a medicine in or out of that list. */
  lemma LowStockIndependentOfExpiry(meds: seq<Medicine>, today: Day, i: nat, e: Option<Day>)
    requires i < |meds|
    ensures var m := meds[i].(expiry := e);
            (meds[i] in InventoryAlerts(meds, today).lowStock) <==>
            (m in InventoryAlerts(meds[i := m], today).lowStock)
  {
    var m := meds[i].(expiry := e);
    assert meds[i := m][i] == m;
  }
}

=== FILE: visits.dfy ===
/**
 A patient visit (appointments/models.py) and the two views that move it:
 the nurse records vitals and sends the visit to the doctor's queue
 (nurses/views.py), and the doctor sets any valid status (doctors/views.py).
 Dates are day numbers and times of day are seconds after midnight.
 */
module Visits {
  import opened Common
  import opened Access
  import opened Collections

  datatype AppointmentStatus = Pending | Ready | Consulting | LabPending | Completed | Cancelled

  const AllStatuses: seq<AppointmentStatus> := [Pending, Ready, Consulting, LabPending, Completed, Cancelled]

  /** The key stored in the status column. */
  function StatusKey(s: AppointmentStatus): string {
    match s
    case Pending => "pending"
    case Ready => "ready"
    case Consulting => "consulting"
    case LabPending => "lab_pending"
    case Completed => "completed"
    case Cancelled => "cancelled"
  }

  /** `status in dict(STATUS_CHOICES)`: the status whose key was submitted, if any. */
  function ParseStatus(k: string): (r: Option<AppointmentStatus>)
    ensures r.Some? ==> StatusKey(r.value) == k
    ensures r.None? ==> forall s :: StatusKey(s) != k
  {
    if k == "pending" then Some(Pending)
    else if k == "ready" then Some(Ready)
    else if k == "consulting" then Some(Consulting)
    else if k == "lab_pending" then Some(LabPending)
    else if k == "completed" then Some(Completed)
    else if k == "cancelled" then Some(Cancelled)
    else None
  }

  /** Keys round-trip, and exactly six keys are valid. */
  lemma StatusKeysRoundTrip(s: AppointmentStatus, k: string)
    ensures ParseStatus(StatusKey(s)) == Some(s)
    ensures ParseStatus(k).Some? <==> k in ["pending", "ready", "consulting", "lab_pending", "completed", "cancelled"]
  {
  }

  /** The vitals the nurse posts, as submitted (None when a field is absent). */
  datatype Vitals = Vitals(
    temp: Option<string>,
    bp: Option<string>,
    pulse: Option<string>,
    respiratoryRate: Option<string>)

  /** The text after an optional leading sign. */
  function Unsigned(s: string): string {
    if |s| > 0 && (s[0] == '-' || s[0] == '+') then s[1..] else s
  }

  /** Text `int()` converts: an optional sign and at least one digit. */
  predicate IsIntegerNumeral(s: string) {
    var digits := Unsigned(s);
    |digits| > 0 && AllDigits(digits)
  }

  /** The integer a numeral denotes. */
  function IntegerValue(s: string): int
    requires IsIntegerNumeral(s)
  {
    var magnitude := ParseDecimal(Unsigned(s));
    if s[0] == '-' then -(magnitude as int) else magnitude
  }

  /** `int(str(n))` and `int("-" + str(n))` give back n and -n. */
  lemma IntegerValueRoundTrip(n: nat)
    ensures IsIntegerNumeral(Decimal(n)) && IntegerValue(Decimal(n)) == n
    ensures IsIntegerNumeral("-" + Decimal(n)) && IntegerValue("-" + Decimal(n)) == -(n as int)
  {
    DecimalRoundTrip(n);
    var d := Decimal(n);
    assert Unsigned(d) == d;
    assert Unsigned("-" + d) == d;
  }

  /** The range of SQLite's INTEGER storage class: signed 64-bit. */
  const MinStoredInteger: int := -0x8000_0000_0000_0000
  const MaxStoredInteger: int := 0x7FFF_FFFF_FFFF_FFFF

  /**
   Text an integer column stores: a numeral whose value fits SQLite's
   INTEGER. A larger value converts in Python, but binding it to the
   statement raises OverflowError and nothing is saved.
   */
  predicate IsIntegerText(s: string) {
    IsIntegerNumeral(s) && MinStoredInteger <= IntegerValue(s) <= MaxStoredInteger
  }

  /** The numeral ends in a point and one more character. */
  predicate HasTenths(u: string) {
    |u| >= 2 && u[|u| - 2] == '.'
  }

  /** The integer part of an unsigned numeral. */
  function WholePart(u: string): string {
    if HasTenths(u) then u[..|u| - 2] else u
  }

  /** An integer part of at most three significant digits: it fits before the point. */
  predicate WholeFits(w: string) {
    |w| >= 1 && AllDigits(w) && |DropLeadingZeros(w)| <= 3
  }

  /**
   Text the `temp` column (four digits, one after the point) stores as
   written: an optional sign, an integer part of at most three significant
   digits (leading zeros allowed), and optionally a point followed by one
   digit.
   */
  predicate IsTempText(s: string) {
    var u := Unsigned(s);
    WholeFits(WholePart(u)) && (HasTenths(u) ==> IsDigit(u[|u| - 1]))
  }

  /** Zeros in front of an integer part do not change whether it fits. */
  lemma WholeFitsIgnoresZeros(z: string, w: string)
    requires forall i :: 0 <= i < |z| ==> z[i] == '0'
    ensures WholeFits(z + w) <==> WholeFits(w) || (w == [] && z != [])
  {
    DropLeadingZerosAbsorbs(z, w);
    if !AllDigits(w) {
      var i :| 0 <= i < |w| && !IsDigit(w[i]);
      assert (z + w)[|z| + i] == w[i];
    } else {
      forall i | 0 <= i < |z + w| ensures IsDigit((z + w)[i]) {
        if i >= |z| {
          assert (z + w)[i] == w[i - |z|];
        }
      }
    }
    if w == [] {
      assert z + w == z;
    }
  }

  /** Leading zeros never change whether a temperature can be stored. */
  lemma {:induction false} TempTextIgnoresLeadingZeros(z: string, s: string)
    requires forall i :: 0 <= i < |z| ==> z[i] == '0'
    requires |s| > 0 && IsDigit(s[0])
    ensures IsTempText(z + s) <==> IsTempText(s)
  {
    var t := z + s;
    if z == [] {
      assert t == s;
    } else {
      assert Unsigned(t) == t && Unsigned(s) == s;
      assert HasTenths(t) <==> HasTenths(s) by {
        if |s| < 2 {
          assert t[|t| - 2] == z[|z| - 1];
        } else {
          assert t[|t| - 2] == s[|s| - 2];
        }
      }
      assert t[|t| - 1] == s[|s| - 1];
      var whole := WholePart(s);
      assert WholePart(t) == z + whole by {
        if HasTenths(s) {
          assert t[..|t| - 2] == z + s[..|s| - 2];
        }
      }
      assert whole != [] by {
        assert whole[0] == s[0];
      }
      WholeFitsIgnoresZeros(z, whole);
    }
  }

  /**
   The posted vitals convert to their columns' types on save: `temp` is a
   decimal, `pulse` and `respiratory_rate` are integers, and an absent field
   stores NULL. `bp` is free text.
   */
  predicate VitalsStorable(v: Vitals) {
    && (v.temp.None? || IsTempText(v.temp.value))
    && (v.pulse.None? || IsIntegerText(v.pulse.value))
    && (v.respiratoryRate.None? || IsIntegerText(v.respiratoryRate.value))
  }

  datatype Appointment = Appointment(
    patient: nat,
    doctor: UserId,
    date: int,
    time: int,
    reason: Option<string>,
    status: AppointmentStatus,
    vitals: Vitals,
    notes: Option<string>)

  /** A new visit: awaiting vitals, with nothing recorded yet. */
  function NewAppointment(patient: nat, doctor: UserId, date: int, time: int, reason: Option<string>): (a: Appointment)
    ensures a.status == Pending
    ensures a.vitals == Vitals(None, None, None, None)
  {
    Appointment(patient, doctor, date, time, reason, Pending, Vitals(None, None, None, None), None)
  }

  datatype VisitOutcome =
    | AccessDenied       // redirect to the dashboard with an error
    | NotFound           // HTTP 404
    | FormShown          // a GET: the page is rendered, nothing changes
    | VitalsSaved
    | SaveFailed         // HTTP 500: a vital does not convert to its column's type; nothing is saved
    | StatusUpdated
    | InvalidStatus      // error message, nothing changes
    | NoChange           // a GET on the doctor's update route

  // ---------------------------------------------------------------------------
  // Nurse
  // ---------------------------------------------------------------------------

  /**
   `enter_vitals`: a POST stores the four vitals and moves the visit to
   `ready`; when a vital does not convert to its column's type the save
   raises and nothing changes.
   */
  function EnterVitals(appts: seq<Appointment>, id: nat, post: Option<Vitals>): (r: (seq<Appointment>, VisitOutcome))
    ensures r.1 != VitalsSaved ==> r.0 == appts
    ensures id >= |appts| ==> r.1 == NotFound
    ensures id < |appts| && post.None? ==> r.1 == FormShown
    ensures id < |appts| && post.Some? && !VitalsStorable(post.value) ==> r.1 == SaveFailed
    ensures r.1 == VitalsSaved <==> id < |appts| && post.Some? && VitalsStorable(post.value)
    ensures r.1 == VitalsSaved ==>
              |r.0| == |appts|
              && r.0[id].status == Ready && r.0[id].vitals == post.value
              && r.0[id] == appts[id].(status := Ready, vitals := post.value)
              && forall j :: 0 <= j < |appts| && j != id ==> r.0[j] == appts[j]
  {
    if id >= |appts| then (appts, NotFound)
    else match post
      case None => (appts, FormShown)
      case Some(v) =>
        if !VitalsStorable(v) then (appts, SaveFailed)
        else (appts[id := appts[id].(vitals := v, status := Ready)], VitalsSaved)
  }

  /** Whatever state the visit was in, storable vitals move it to the doctor's queue. */
  lemma EnterVitalsFromAnyStatus(appts: seq<Appointment>, id: nat, v: Vitals, s: AppointmentStatus)
    requires id < |appts| && VitalsStorable(v)
    ensures EnterVitals(appts[id := appts[id].(status := s)], id, Some(v)).0[id].status == Ready
  {
  }

  /** A temperature as usually typed fits the column. */
  lemma TypicalTempStores()
    ensures IsTempText("36.6")
  {
    assert WholePart(Unsigned("36.6")) == "36";
    assert DropLeadingZeros("36") == "36";
  }

  /** Any run of zeros in front of a typical temperature is harmless. */
  lemma PaddedTempStores(z: string)
    requires forall i :: 0 <= i < |z| ==> z[i] == '0'
    ensures IsTempText(z + "36.6")
  {
    TypicalTempStores();
    TempTextIgnoresLeadingZeros(z, "36.6");
  }

  /** A fourth digit before the point does not fit the column. */
  lemma TempTextTooLong()
    ensures !IsTempText("1000")
  {
    assert WholePart(Unsigned("1000")) == "1000";
    assert DropLeadingZeros("1000") == "1000";
  }

  /** Counts as typed: digits convert; a blank field or a trailing unit does not. */
  lemma IntegerTextExamples()
    ensures IsIntegerText("72") && IsIntegerText("16")
    ensures !IsIntegerText("") && !IsIntegerText("72bpm")
  {
    assert Unsigned("72") == "72" && DropLeadingZeros("72") == "72";
    IntegerTextBySignificantDigits("72");
    assert Unsigned("16") == "16" && DropLeadingZeros("16") == "16";
    IntegerTextBySignificantDigits("16");
    assert Unsigned("72bpm") == "72bpm" && !IsDigit("72bpm"[2]);
  }

  /**
   Up to 18 significant digits always fit the stored integer range; 20 or
   more never do (the 19-digit numerals fit up to 2^63 - 1).
   */
  lemma IntegerTextBySignificantDigits(s: string)
    requires IsIntegerNumeral(s)
    ensures |DropLeadingZeros(Unsigned(s))| <= 18 ==> IsIntegerText(s)
    ensures |DropLeadingZeros(Unsigned(s))| >= 20 ==> !IsIntegerText(s)
  {
    var d := Unsigned(s);
    Pow10Of18And19();
    if |DropLeadingZeros(d)| <= 18 {
      FewDigitsBelowPow10(d, 18);
    } else if |DropLeadingZeros(d)| >= 20 {
      ManyDigitsAtLeastPow10(d, 19);
    }
  }

  /** A pulse of twenty nines converts in Python but does not fit the column. */
  lemma OverflowingPulseFails(appts: seq<Appointment>, id: nat)
    requires id < |appts|
    ensures EnterVitals(appts, id, Some(Vitals(None, None, Some(seq(20, _ => '9')), None))) == (appts, SaveFailed)
  {
    var p := seq(20, _ => '9');
    assert Unsigned(p) == p && DropLeadingZeros(p) == p;
    IntegerTextBySignificantDigits(p);
  }

  /** Typical readings save, and so does a temperature written with leading zeros. */
  lemma VitalsConversionExamples(appts: seq<Appointment>, id: nat)
    requires id < |appts|
    ensures EnterVitals(appts, id, Some(Vitals(Some("36.6"), Some("120/80"), Some("72"), Some("16")))).1 == VitalsSaved
    ensures EnterVitals(appts, id, Some(Vitals(Some("00" + "36.6"), None, None, None))).1 == VitalsSaved
  {
    TypicalTempStores();
    PaddedTempStores("00");
    IntegerTextExamples();
    assert VitalsStorable(Vitals(Some("36.6"), Some("120/80"), Some("72"), Some("16")));
    assert VitalsStorable(Vitals(Some("00" + "36.6"), None, None, None));
  }

  /**
   A blank pulse, a pulse with a unit, or a temperature of 1000 does not
   convert, and the visit stays as it was.
   */
  lemma VitalsRejectionExamples(appts: seq<Appointment>, id: nat)
    requires id < |appts|
    ensures EnterVitals(appts, id, Some(Vitals(Some("36.6"), Some("120/80"), Some(""), None))) == (appts, SaveFailed)
    ensures EnterVitals(appts, id, Some(Vitals(None, None, Some("72bpm"), None))) == (appts, SaveFailed)
    ensures EnterVitals(appts, id, Some(Vitals(Some("1000"), None, None, None))) == (appts, SaveFailed)
  {
    TempTextTooLong();
    IntegerTextExamples();
    assert !VitalsStorable(Vitals(Some("36.6"), Some("120/80"), Some(""), None));
    assert !VitalsStorable(Vitals(None, None, Some("72bpm"), None));
    assert !VitalsStorable(Vitals(Some("1000"), None, None, None));
  }

  /** `nurse_dashboard`: the pending visits, earliest time of day first. */
  function NurseQueue(appts: seq<Appointment>): (q: seq<Appointment>)
    ensures SortedBy(q, (a: Appointment) => a.time)
    ensures forall i :: 0 <= i < |q| ==> q[i] in appts && q[i].status == Pending
    ensures forall i :: 0 <= i < |appts| && appts[i].status == Pending ==> appts[i] in q
    ensures forall a :: multiset(q)[a] == if a.status == Pending then multiset(appts)[a] else 0
  {
    var pending := Filter(appts, (a: Appointment) => a.status == Pending);
    var q := SortBy(pending, (a: Appointment) => a.time);
    SameMultisetSameMembers(q, pending);
    FilterCounts(appts, (a: Appointment) => a.status == Pending);
    q
  }

  /** Saving vitals takes the visit off the nurse's queue. */
  lemma VitalsLeaveNurseQueue(appts: seq<Appointment>, id: nat, v: Vitals)
    requires id < |appts| && VitalsStorable(v)
    ensures var after := EnterVitals(appts, id, Some(v)).0;
            after[id] !in NurseQueue(after)
  {
  }

  // ---------------------------------------------------------------------------
  // Doctor
  // ---------------------------------------------------------------------------

  /** The posted status and notes, each None when absent. */
  datatype StatusForm = StatusForm(status: Option<string>, notes: Option<string>)

  /**
   `update_appointment_status`: only a doctor, only on their own visit. A
   valid status is set whatever the current one; the notes are replaced only
   when non-empty notes were posted.
   */
  function UpdateAppointmentStatus(appts: seq<Appointment>, u: User, id: nat, post: Option<StatusForm>)
    : (r: (seq<Appointment>, VisitOutcome))
    ensures r.1 != StatusUpdated ==> r.0 == appts
    ensures u.role != Some("doctor") ==> r.1 == AccessDenied
    ensures u.role == Some("doctor") && (id >= |appts| || appts[id].doctor != u.id) ==> r.1 == NotFound
    ensures r.1 == StatusUpdated <==>
              u.role == Some("doctor") && id < |appts| && appts[id].doctor == u.id
              && post.Some? && post.value.status.Some? && ParseStatus(post.value.status.value).Some?
    ensures r.1 == StatusUpdated ==>
              var f := post.value;
              && |r.0| == |appts|
              && StatusKey(r.0[id].status) == f.status.value
              && r.0[id].notes == (if Truthy(f.notes) then f.notes else appts[id].notes)
              && r.0[id].(status := appts[id].status, notes := appts[id].notes) == appts[id]
              && forall j :: 0 <= j < |appts| && j != id ==> r.0[j] == appts[j]
  {
    if u.role != Some("doctor") then (appts, AccessDenied)
    else if id >= |appts| || appts[id].doctor != u.id then (appts, NotFound)
    else match post
      case None => (appts, NoChange)
      case Some(f) =>
        var parsed := if f.status.Some? then ParseStatus(f.status.value) else None;
        match parsed
        case None => (appts, InvalidStatus)
        case Some(s) =>
          var a := appts[id].(status := s);
          var a' := if Truthy(f.notes) then a.(notes := f.notes) else a;
          (appts[id := a'], StatusUpdated)
  }

  /** No order is enforced: a doctor can move their visit from any status to any status. */
  lemma AnyStatusReachable(appts: seq<Appointment>, u: User, id: nat, from: AppointmentStatus, to: AppointmentStatus,
                           notes: Option<string>)
    requires u.role == Some("doctor") && id < |appts| && appts[id].doctor == u.id
    ensures var start := appts[id := appts[id].(status := from)];
            var r := UpdateAppointmentStatus(start, u, id, Some(StatusForm(Some(StatusKey(to)), notes)));
            r.1 == StatusUpdated && r.0[id].status == to
  {
    StatusKeysRoundTrip(to, StatusKey(to));
  }

  /** An unknown key changes neither status nor notes. */
  lemma UnknownStatusChangesNothing(appts: seq<Appointment>, u: User, id: nat, notes: Option<string>)
    requires u.role == Some("doctor") && id < |appts| && appts[id].doctor == u.id
    ensures UpdateAppointmentStatus(appts, u, id, Some(StatusForm(Some("scheduled"), notes))) == (appts, InvalidStatus)
    ensures UpdateAppointmentStatus(appts, u, id, Some(StatusForm(None, notes))) == (appts, InvalidStatus)
  {
  }
}
